=== FILE: README.md ===
# GofiberAPI core, modelled in Dafny

This project models the security and persistence core of GofiberAPI, a
personal-finance REST service written in Go on Fiber and Postgres. It covers
four areas:

- **Authentication.** It models the bearer-header parsing of both
  authentication middlewares. It also models the access and refresh payloads,
  the two JWT makers (the `auth` maker with two keys and the older `token`
  maker with one), the refresh-token endpoint with its `tokenCredentials`
  helper, and the `sessions` table.
- **Authorisation.** It models the permission types (`admin`, `member`,
  `memberIsTarget`) and the permission checker with its role cache and its
  `wrap` middleware.
- **Persistence.** It models the soft-delete repositories: transactions,
  accounts, merchants and categories. Each has create, get, list, delete and,
  where it exists, update. It also models the `user_roles` table.
- **Request checks.** It models the translation of validator failures into the
  JSON error list, and the supported currency codes.

The Go code is modelled **as written**. Where the code evidently does not do
what its authors meant, a separate corrected member sits next to the
as-written one, and a lemma exhibits the difference (see "## Findings").

Modelling conventions:

- **Time.** Time is whole Unix seconds. Each request or query sees one
  explicit `now`. Go's zero `time.Time`, which live rows keep in
  `deleted_at`, is `Base.ZeroTime`.
- **Randomness.** The random source appears as a parameter. `None` means
  `uuid.NewRandom` failed.
- **Tokens.** A token is seen through its structure: header algorithm,
  claims, and the key it was signed with (`Jwt.Token`). A text that does not
  decode is `Malformed`. A signature verifies exactly under the key that made
  it.
- **Row ids.** Rows carry natural-number ids allocated in insertion order, so
  a table is a sequence and row `i` has id `i`.
- **Soft delete.** A delete stamps `deleted_at`. Every read filters on
  `deleted_at = '0001-01-01'`.
- **Postgres paging.** A negative `OFFSET` is rejected before a negative
  `LIMIT`.

Modules follow the source layout:

| file | what it models |
|---|---|
| `base.dfy` | option/result types, database errors, status codes |
| `text.dfy` | the parts of Go's `strings` package the core uses |
| `jwt.dfy` | signing and `ParseWithClaims` of jwt-go |
| `auth_payload.dfy` | `auth/access_payload.go`, `auth/refresh_payload.go` |
| `auth_maker.dfy` | `auth/jwt_token.go` |
| `token_payload.dfy` | `token/payload.go` |
| `token_maker.dfy` | `token/jwt_token.go` |
| `bearer.dfy` | the header parsing shared by the two middlewares |
| `auth_middleware.dfy` | `api/auth_middleware.go` |
| `token_middleware.dfy` | `api/token_middleware.go` |
| `user_roles.dfy` | `database/sqlc/user_roles.go` and the grant status mapping |
| `permissions.dfy` | `api/permission_type.go`, `api/permissions.go` |
| `sessions.dfy` | `database/sqlc/session.go` |
| `credentials.dfy` | `api/users_api.go` (`tokenCredentials`), `api/token_credentials.go` |
| `refresh.dfy` | `api/refresh_token_api.go` |
| `req_validator.dfy` | `api/req_validator.go` |
| `currencies.dfy` | `utils/currencies.go` |
| `soft_delete.dfy` | the soft-delete table shared by the four repositories |
| `transactions.dfy` | `database/sqlc/transaction.go`, the transaction handlers |
| `accounts.dfy` | `database/sqlc/accounts.go`, account creation |
| `merchants.dfy` | `database/sqlc/merchant.go` |
| `categories.dfy` | `database/sqlc/category.go` |
| `request_locals.dfy` | the request locals the middleware stores and the handlers read |

## Model

| member | source | states |
|---|---|---|
| Base.Filter | database/sqlc/accounts.go:96-103 | a WHERE clause returns only rows of the table that satisfy it, returns every row that does, never more rows than the table, and everything when every row qualifies |
| Base.FilterConcat | database/sqlc/accounts.go:96-103 | a WHERE clause keeps the order and multiplicity of the rows: filtering a concatenation is concatenating the filtered parts |
| Base.FilterOfOne | database/sqlc/accounts.go:96-103 | a single row is kept exactly when it satisfies the clause |
| Base.Window | database/sqlc/accounts.go:96-103 | `OFFSET o LIMIT l` returns exactly the page: min(l, rows left after o) rows, the k-th being row o+k of the ordered result |
| Base.PagesConcatenate | database/sqlc/accounts.go:96-103 | paging is contiguous: n rows at o followed by m rows at o+n are the n+m rows at o |
| Base.WholeFirstPage | database/sqlc/accounts.go:96-103 | a first page whose limit covers the result is the whole result |
| Text.Fields | api/auth_middleware.go:33 | strings.Fields yields only non-empty, space-free words |
| Text.FieldsOfJoin | api/auth_middleware.go:33-38 | Fields recovers exactly the words of a single-space join, so the second field of "Bearer tok" is the token |
| Text.FieldsEmptyIffBlank | api/auth_middleware.go:33-38 | a header has no fields exactly when it is all white space |
| Text.Squeeze | api/auth_middleware.go:33 | the non-space characters of a string: no longer than it and free of white space |
| Text.FieldsKeepEveryNonSpace | api/auth_middleware.go:33 | strings.Fields drops the white space and nothing else: its fields laid end to end are the string's non-space characters in order |
| Text.FieldsSkipBlank | api/auth_middleware.go:33 | leading white space does not change the fields |
| Text.FieldsOfBlankJoin | api/auth_middleware.go:33 | strings.Fields splits at every run of white space and nowhere else: words with any blanks around them and non-empty blanks between them come back exactly |
| Text.LowerEqualsIffEqualFold | api/auth_middleware.go:39-45 | comparing ToLower(scheme) with "bearer" is a case-insensitive comparison: "Bearer", "BEARER" and "bearer" all pass, nothing else does |
| Text.Utf8Length | auth/jwt_token.go:29-32 | Go's `len` of a string counts at least one and at most four bytes per character, and is zero only for the empty string |
| Text.JoinSplit | api/req_validator.go:49-51 | joining the pieces of strings.Split with the separator gives back the namespace |
| Text.LastSegmentIsFinalRun | api/req_validator.go:49-51 | the last piece of a split is the dot-free suffix after the last dot, or the whole string when there is none |
| Currencies.IsSupportedCurrency | utils/currencies.go:5-19 | a code is supported exactly when it is one of USD, EUR, KES, UGX, TZS; every supported code has three characters |
| Currencies.LowerCaseRejected | utils/currencies.go:13-19 | matching is case-sensitive: the lower-case spelling of any supported code is refused |
| Currencies.LowerUsdRejected | utils/currencies.go:13-19 | "usd" is refused while "USD" is accepted |
| RequestValidator.ValidationErrorResponse | api/req_validator.go:70-76 | the map has exactly the keys failed_field, tag and value, holding the three arguments |
| RequestValidator.ValidateResponse | api/req_validator.go:42-68 | one response per validation error, in order; failed_field is the namespace after its last dot, tag is copied, value is "field is empty" for `required`, "invalid email" for `email`, and the tag parameter otherwise |
| RequestValidator.FailedFieldIsLastName | api/req_validator.go:49-51 | the reported field name contains no dot, is a suffix of the namespace, and is the whole namespace when it has no dot |
| AuthPayload.NewAccessPayload | auth/access_payload.go:31-42 | fails exactly when no random id is available; otherwise jti is that id, sub the user, iat now and exp now + duration |
| AuthPayload.AccessValid | auth/access_payload.go:45-50 | an access payload is expired exactly when now is after exp, and the only error is ErrExpiredToken |
| AuthPayload.NewRefreshPayload | auth/refresh_payload.go:14-19 | never fails; carries only the user and now + duration |
| AuthPayload.RefreshValid | auth/refresh_payload.go:22-27 | a refresh payload is expired exactly when now is after exp |
| AuthPayload.FreshAccessPayloadLifetime | auth/access_payload.go:31-50 | a new access payload is valid at every time from its issue up to and including its expiry, and expired after it |
| AuthPayload.RefreshPayloadsCollide | auth/refresh_payload.go:6-19 | two refresh payloads for the same user are equal exactly when they expire in the same second |
| Jwt.SignHS256 | auth/jwt_token.go:48-50 | signing yields an HS256 token carrying exactly the given claims under the given key |
| Jwt.ParseWithClaims | auth/jwt_token.go:57-65 | parsing succeeds or reports a claims error exactly for an HMAC token signed with the key and decoded into a pointer; the claims error is reported only then |
| AuthMaker.NewJWTTokenMaker | auth/jwt_token.go:28-37 | a maker is built exactly when both keys are at least 32 bytes long, and keeps both keys; otherwise the error names the minimum of 32 |
| AuthMaker.CreateAccessToken | auth/jwt_token.go:40-51 | fails exactly when the payload cannot be made; otherwise the token is the new access payload signed HS256 with the secret key |
| AuthMaker.CreateRefreshToken | auth/jwt_token.go:86-96 | always succeeds, with the refresh payload signed HS256 with the refresh key |
| AuthMaker.VerifyAccessToken | auth/jwt_token.go:54-83 | a token is not invalid exactly when it is an HMAC token signed with the secret key; such a token verifies to its claims until exp and is reported expired, with its claims, after |
| AuthMaker.VerifyRefreshToken | auth/jwt_token.go:114-143 | the same rule under the refresh key, for refresh claims |
| AuthMaker.AccessTokenExpiresAt | auth/jwt_token.go:99-111 | the error is the verification error; exp is read from the claims unless the token is invalid, in which case it is 0 |
| AuthMaker.RefreshTokenExpiresAt | auth/jwt_token.go:146-158 | the same read-back for refresh tokens |
| AuthMaker.AccessTokenRoundTrip | auth/jwt_token.go:40-83 | create then verify: a new access token verifies to its own payload until it expires and is reported expired after |
| AuthMaker.RefreshTokenRoundTrip | auth/jwt_token.go:86-143 | create then verify for refresh tokens |
| AuthMaker.KeysSeparateTokenKinds | auth/jwt_token.go:28-143 | with distinct keys, a refresh token is never accepted as an access token nor the reverse |
| AuthMaker.SharedKeyAdmitsRefreshAsAccess | auth/jwt_token.go:28-83 | when both keys coincide, a refresh token passes access verification, as an access payload with no jti or iat |
| AuthMaker.AccessExpiryReadBack | auth/jwt_token.go:40-111 | reading back a new access token's expiry gives now + duration |
| TokenPayload.NewPayload | token/payload.go:24-35 | fails exactly when no random id is available; otherwise the payload holds the id, user, now and now + duration |
| TokenPayload.Valid | token/payload.go:37-42 | expired exactly when now is after the expiry |
| TokenPayload.FreshPayloadLifetime | token/payload.go:24-42 | a new payload is valid up to and including its expiry and expired after |
| TokenMaker.NewJWTTokenMaker | token/jwt_token.go:22-29 | a maker is built exactly when the key has at least 32 bytes |
| TokenMaker.CreateToken | token/jwt_token.go:31-38 | fails exactly when the payload cannot be made; otherwise the payload signed HS256 with the key |
| TokenMaker.VerifyTokenAsWritten | token/jwt_token.go:40-65 | as written, every token is reported invalid |
| TokenMaker.VerifyTokenAsWrittenRejectsFreshToken | token/jwt_token.go:31-65 | a token this maker has just created is rejected by it in the same second |
| TokenMaker.VerifyToken | token/jwt_token.go:40-65 | with the claims passed by pointer, a token verifies exactly when it is an HMAC token signed with the key and not past its expiry, and is reported expired exactly when it is such a token past its expiry |
| TokenMaker.TokenRoundTrip | token/jwt_token.go:31-65 | create then (corrected) verify returns the payload until expiry and ErrExpiredToken after |
| TokenMaker.ForeignTokensInvalid | token/jwt_token.go:40-65 | a token signed with another key or a non-HMAC method is invalid |
| Bearer.ParseAuthorization | api/auth_middleware.go:24-46 | an empty header is "not provided", fewer than two fields is "invalid format", a first field other than bearer in any case is "unsupported type", and otherwise the token is exactly the second field |
| Bearer.BlankHeaderIsInvalidFormat | api/auth_middleware.go:33-38 | a non-empty all-space header is rejected as badly formatted |
| Bearer.BearerHeaderYieldsSecondField | api/auth_middleware.go:33-46 | "Bearer tok" followed by any further words yields tok |
| AuthMiddleware.AuthTokenMiddleWare | api/auth_middleware.go:19-58 | the request proceeds exactly when the header parses and the access token verifies; the payload is stored under authorization_payload and is unexpired; every refusal is 401, and a header that does not parse is answered with that header error's own message |
| AuthMiddleware.VerifyErrorsAreUnauthorized | api/auth_middleware.go:48-53 | an expired or invalid token is answered 401 with the verifier's error message |
| TokenMiddleware.TokenAuthMiddleWare | api/token_middleware.go:17-44 | the same contract for the older maker, with the payload exactly what the verifier returned, the header error's message when the header does not parse and the verifier's message when the token is refused |
| TokenMiddleware.AsWrittenVerifierRejectsEveryRequest | api/token_middleware.go:35-42 | behind the verifier as written, no request gets through |
| TokenMiddleware.CorrectedVerifierAdmitsFreshToken | api/token_middleware.go:29-44 | behind the corrected verifier, a fresh token in a bearer header gets through with its own payload |
| UserRoles.GrantRole | database/sqlc/user_roles.go:7-32 | a grant fails with a unique violation exactly when the user already holds the role, leaving the table; otherwise it appends that row stamped now; either way the user holds the role after |
| UserRoles.GrantStatus | api/user_roles_api.go:49-65 | unique violation gives 403 "role already allocated to user", any other error 500, success 201 |
| UserRoles.GrantTwiceForbidden | api/user_roles_api.go:49-57 | granting the same pair twice is refused with 403 |
| UserRoles.RevokeRole | database/sqlc/user_roles.go:34-48 | exactly the rows of that user and role are deleted, every other row is kept, the call reports no error even when nothing matched |
| UserRoles.RevokeThenGrantSucceeds | database/sqlc/user_roles.go:7-48 | after a revoke the same pair can be granted again (201) |
| UserRoles.GetUserRoleByID | database/sqlc/user_roles.go:50-69 | found exactly when the user has a role row; returns the first such row's role and created_at with an empty user id; otherwise the zero row and ErrNoRows |
| UserRoles.ListUsersByRole | database/sqlc/user_roles.go:71-117 | negative offset, then negative limit, is an error; a scan error exactly when some row of the requested page fails to scan; otherwise exactly that page of the user's rows in storage order |
| UserRoles.ListUsersByRoleAppends | database/sqlc/user_roles.go:71-117 | in the model's storage order (the table as a sequence, new rows at the end): a limit covering the table lists every row of the user, and rows added at the end of that sequence are listed after the earlier ones |
| Permissions.AdminOnly | api/permission_type.go:20-26 | true exactly for the role "admin" |
| Permissions.MemberOnly | api/permission_type.go:30-32 | true exactly when the payload has a subject |
| Permissions.MemberIsTargetOnly | api/permission_type.go:35-43 | true exactly when the route user and the subject are both non-empty and equal; implies MemberOnly |
| Permissions.GetRoleAsWritten | api/permissions.go:89-96 | as written: every id the cache holds panics at the `*db.UserRole` assertion, because the loader stores a `db.UserRole` value; a miss returns the loader's ErrNoRows |
| Permissions.HeldRolePanics | api/permissions.go:75-95 | over a cache its loader filled, any user holding a role row makes getRole panic |
| Permissions.GetRole | api/permissions.go:89-96 | corrected (the loader returns `&role`, or the assertion reads a value): the cache answers exactly for ids it holds, with the stored role, and ErrNoRows otherwise |
| Permissions.GetRoleIsLoaderResult | api/permissions.go:75-96 | over a cache its loader filled, the corrected getRole answers exactly what GetUserRoleByID answers: found, with the same role, or the same error |
| Permissions.GetRoleAgreesUnlessPanic | api/permissions.go:89-96 | wherever getRole as written returns, the corrected version returns the same |
| Permissions.WithRoles | api/permissions.go:27-36 | as written: a non-empty subject is refused with "userID not provided"; only the empty subject reaches the lookup, which panics exactly when the cache holds it and otherwise returns ErrNoRows; it never allows |
| Permissions.WithRolesRefusesLoggedInAdmin | api/permissions.go:27-36 | a logged-in user holding admin is refused by the admin test with "userID not provided" |
| Permissions.WithRolesCorrected | api/permissions.go:27-36 | with the subject test and getRole both corrected, the role test passes exactly when the subject is non-empty, cached, and its role satisfies the test |
| Permissions.Check | api/permissions.go:38-64 | panics exactly when an admin entry whose lookup panics is reached first, which needs an empty subject; refuses exactly when a memberIsTarget entry on a route without a user id is reached first; allows otherwise |
| Permissions.EmptyListAllows | api/permissions.go:38-64 | an empty permission list lets everyone through, with no panic |
| Permissions.CheckAdmitsAnyone | api/permissions.go:38-64 | with a route user id, or with no memberIsTarget entry, nobody is refused, and a caller with a subject never reaches the panic |
| Permissions.Wrap | api/permissions.go:98-116 | the request is denied exactly when the check refuses, with 401 "user unauthorized, permission denied", and ends in a panic exactly when the check panics |
| Permissions.CheckCorrected | api/permissions.go:38-64 | allows exactly when some entry grants access before any memberIsTarget entry on a route without a user id, and refuses when the list runs out |
| Permissions.CorrectedCheckRefusesNonAdmin | api/permissions.go:38-64 | a cached non-admin on an admin-only route is refused by the corrected check; the check as written does not refuse them and, for a logged-in caller, does not panic either, so lets them through |
| Permissions.CorrectedCheckAdmitsAdmin | api/permissions.go:38-64 | a logged-in admin passes the corrected admin-only check |
| Sessions.SaveRefreshToken | database/sqlc/session.go:8-34 | upsert on (user, device): that key now holds the token, its expiry and created_at = now; every other session is unchanged and no key is lost |
| Sessions.GetSession | database/sqlc/session.go:42-66 | found exactly when the device's session holds this very token and its expiry is still ahead; otherwise the zero session and ErrNoRows |
| Sessions.SavedTokenFoundUntilExpiry | database/sqlc/session.go:8-66 | a saved token is found by the same user and device exactly until its expiry second |
| Sessions.RotationRetiresOldToken | database/sqlc/session.go:8-66 | after a save, any other token for that device is no longer found |
| Sessions.SaveLeavesOtherSessions | database/sqlc/session.go:8-66 | a save does not change the lookup of any other user's or device's session |
| Sessions.SaveIdempotent | database/sqlc/session.go:8-34 | saving the same row twice at the same time equals saving it once |
| Credentials.TokenCredentials | api/users_api.go:152-176 | as written: the error depends only on the refresh token's expiry; a failed access token comes back empty with expiry 0; the refresh token and its expiry are always issued |
| Credentials.FailedAccessTokenIsMasked | api/users_api.go:155-175 | with no random id the call reports success yet hands out an access token no verifier accepts |
| Credentials.ExpiredAccessTokenIsMasked | api/users_api.go:160-175 | an access token that is already expired is likewise returned without error |
| Credentials.TokenCredentialsChecked | api/users_api.go:152-176 | corrected: succeeds exactly when a random id exists and both lifetimes are non-negative; on success both tokens verify to their payloads and the expiries are now + each duration |
| Credentials.CheckedAgreesOnSuccess | api/users_api.go:152-176 | whenever the corrected version succeeds, the version as written returns the same tokens and expiries |
| Refresh.MissingFields | api/refresh_token_api.go:16-19 | no validation error exactly when both the refresh token and the device id are present; every error has tag "required" |
| Refresh.RefreshToken | api/refresh_token_api.go:23-121 | 400 for an undecodable body, with the field errors for missing fields, or "access token not expired" more than 30 s before expiry; 401 exactly when those pass and the refresh token does not verify; 404 "session not found" exactly when it verifies but the device's session does not hold it unexpired; 404 with the no-rows message exactly when the session's user is gone; 500 exactly when a negative refresh lifetime fails the credentials; 200 exactly otherwise, returning the token's user with exactly the tokens and access expiry tokenCredentials issues for that user and rewriting that user's device session to the new refresh token and its expiry; every other reply leaves the sessions unchanged. The 401 carries "token is expired login required" for an expired refresh token and the invalid-token message otherwise |
| Refresh.WindowBehindMiddleware | api/refresh_token_api.go:43-47 | behind the middleware, a refresh is only attempted in the last 30 seconds of the access token's life |
| Refresh.RefreshRotatesSession | api/refresh_token_api.go:61-120 | after a successful refresh, for the refresh token's subject and device, the returned refresh token is found until its expiry, and the one presented is not found whenever its EXP differs from now plus the refresh lifetime |
| Refresh.ReplayedTokenIsRefused | api/refresh_token_api.go:61-120 | a refresh token whose EXP differs from now plus the refresh lifetime gets at most one 200: once a refresh succeeds with it, presenting it again never succeeds, at any later time and with any access token |
| Refresh.RefreshIssuesNewToken | api/refresh_token_api.go:91-120 | a successful refresh hands back the presented token exactly when it equals the token the handler signs for the same subject, lifetime and second; so a presented token whose EXP differs from now plus the refresh lifetime is always replaced by a different one |
| Refresh.ExpirySecondSessionNotFound | api/refresh_token_api.go:48-77 | at the instant of its expiry a refresh token still verifies, but its session no longer matches, so the reply is 404 "session not found" |
| SoftDelete.Insert | database/sqlc/transaction.go:9-45 | appends one live row stamped now, with the next id, leaving existing rows |
| SoftDelete.Get | database/sqlc/transaction.go:91-116 | found exactly when the id exists and the row is not deleted; otherwise ErrNoRows |
| SoftDelete.Update | database/sqlc/accounts.go:44-70 | succeeds exactly on a live row, changing only its data and leaving all other rows; otherwise ErrNoRows and no change |
| SoftDelete.Delete | database/sqlc/transaction.go:265-279 | succeeds exactly on a live row, stamping deleted_at = now and returning it; other rows untouched; otherwise ErrNoRows and no change |
| SoftDelete.SelectFrom | database/sqlc/transaction.go:118-165 | returns every live matching row from the start id on and nothing else, in ascending id order |
| SoftDelete.Select | database/sqlc/transaction.go:118-165 | the live rows satisfying the WHERE clause, all of them, in ascending id order |
| SoftDelete.List | database/sqlc/transaction.go:118-165 | negative offset, then negative limit, is an error; otherwise exactly the page at offset of the ordered selection: min(limit, rows left) rows, the k-th being selected row offset+k |
| SoftDelete.ListPagesConcatenate | database/sqlc/transaction.go:118-165 | consecutive pages of a list join into the longer page: no row is skipped or repeated |
| SoftDelete.ListWholeTable | database/sqlc/transaction.go:118-165 | a first page at least as long as the table is the whole selection |
| SoftDelete.InsertThenGet | database/sqlc/transaction.go:9-116 | a row just inserted is found under its id with its data |
| SoftDelete.DeleteIsOneShot | database/sqlc/transaction.go:265-279 | after a delete the row is not found and a second delete fails with ErrNoRows |
| SoftDelete.DeleteHidesFromSelect | database/sqlc/transaction.go:118-279 | after a delete the row is absent from every selection and every other selected row remains |
| SoftDelete.WritesLeaveOtherRows | database/sqlc/accounts.go:44-157 | an update or delete of one id does not change the lookup of any other id |
| Transactions.CreateTransaction | database/sqlc/transaction.go:9-45 | the new live transaction has exactly the given columns and is found under its id; existing rows are unchanged |
| Transactions.GetTransactionByID | database/sqlc/transaction.go:91-116 | found exactly when the transaction exists and is not deleted |
| Transactions.ListTransactions | database/sqlc/transaction.go:118-263 | exactly the page at offset of the owner's live transactions dated strictly inside the period, in id order; with offset 0 and a large enough limit all of them |
| Transactions.TransactionPagesConcatenate | database/sqlc/transaction.go:118-263 | consecutive pages of a transaction list join into the longer page |
| Transactions.DeleteTransaction | database/sqlc/transaction.go:265-279 | soft-deletes a live transaction and returns now, else ErrNoRows |
| Transactions.DeletedTransactionDisappears | database/sqlc/transaction.go:118-279 | a deleted transaction is not found and appears in no list |
| Transactions.CreateParamsFromRequest | api/transactions.go:44-52 | the create parameters carry the logged-in user and the request's fields, with the notes dropped |
| Transactions.CreatedNotesAreEmpty | api/transactions.go:20-52 | a transaction created through the handler has empty notes whatever notes were sent |
| Transactions.CreateParamsAsWritten | api/transactions.go:30-52 | as written: no parameters (a panic) exactly when the "userID" local is missing; otherwise the local's user with the request's columns and empty notes |
| Transactions.CreateTransactionPanicsBehindMiddleware | api/transactions.go:30-33 | no request the middleware admits gets past the "userID" assertion |
| Transactions.CreateParamsCorrected | api/transactions.go:30-52 | corrected: the caller is the stored payload's subject; the parameters exist exactly when a payload is stored |
| Transactions.CorrectedCreateOwnedByCaller | api/transactions.go:30-52 | behind the middleware the corrected handler creates the transaction for the token's subject with the request's columns and empty notes |
| Transactions.WrapInt32 | api/transactions.go:197-201 | int32 arithmetic: the result lies in the int32 range, agrees with the exact value modulo 2^32, and is the exact value when it fits |
| Transactions.PageOffsetAsWritten | api/transactions.go:197-201 | the int32 offset lies in the int32 range and is the exact offset whenever that fits |
| Transactions.LastPageOffsetWraps | api/transactions.go:197-201 | page_id 2147483647 with page_size 10 passes the page checks, and its offset wraps to -20 |
| Transactions.PageOffset | api/transactions.go:197-201 | corrected: a non-negative multiple of the page size whose quotient is page_id - 1 |
| Transactions.PagesAreContiguous | api/transactions.go:133-201 | consecutive valid pages start exactly one page apart |
| Transactions.ListPage | api/transactions.go:204-217 | 500 exactly when the query fails (negative offset or limit), 404 exactly when the query returns no rows, 200 exactly when it returns some, with exactly those rows |
| Transactions.ListTransactionsHandler | api/transactions.go:178-259 | as written: 422 when page_id or page_size does not fit in an int32 (the query parser fails); otherwise 400 when the page bounds fail or From or To is missing (the zero time); the intended page whenever the offset fits in an int32; a 500 reply only when the exact offset overflows int32 |
| Transactions.LastPageFailsAsWritten | api/transactions.go:197-201 | with From and To given, the last valid page answers 500 instead of 404 |
| Transactions.ListTransactionsHandlerCorrected | api/transactions.go:178-259 | with the exact offset a request never answers 500: 422 when page_id or page_size does not fit in an int32, otherwise 400 when the page bounds fail or From or To is missing, the page at (page_id - 1) * page_size otherwise |
| Transactions.HandlersAgreeWithoutOverflow | api/transactions.go:178-259 | the two handlers agree on every request whose offset fits in an int32 |
| Transactions.DeleteTransactionHandler | api/transactions.go:261-284 | 400 without an id; 404 exactly when nothing live has it; 200 exactly when a live transaction has it, soft-deleting it; no change on any other reply |
| Accounts.CreateAccount | database/sqlc/accounts.go:10-38 | the new live account has exactly the given columns and is found under its id; existing accounts are unchanged |
| Accounts.UpdateAccount | database/sqlc/accounts.go:44-70 | a live account's balance becomes the new one and nothing else changes; otherwise ErrNoRows |
| Accounts.GetAccountByID | database/sqlc/accounts.go:72-94 | found exactly when the account exists and is not deleted |
| Accounts.ListAccounts | database/sqlc/accounts.go:96-140 | negative offset or limit is an error; otherwise exactly the page at offset of the user's live accounts in id order |
| Accounts.ListAccountsWholeTable | database/sqlc/accounts.go:96-140 | a first page at least as long as the table lists every live account of the user |
| Accounts.DeleteAccount | database/sqlc/accounts.go:142-157 | soft-deletes a live account and returns now; afterwards it can be neither read nor updated |
| Accounts.DeletedAccountIsFrozen | database/sqlc/accounts.go:44-157 | a deleted account can be neither deleted again nor updated |
| Accounts.CreateAccountHandler | api/accounts_api.go:25-71 | 201 exactly for a request with all fields and a supported currency, opening the account with balance 0; otherwise 400 and no change |
| Accounts.CreateAccountAsWritten | api/accounts_api.go:31-71 | as written: no reply (a panic) exactly when the "userID" local is missing, whatever the body; otherwise 201 exactly for a valid request, for the local's user |
| Accounts.CreateAccountPanicsBehindMiddleware | api/accounts_api.go:31-35 | no request the middleware admits gets a reply from createAccount |
| Accounts.CreateAccountCorrected | api/accounts_api.go:31-71 | corrected: the caller is the stored payload's subject; a reply exactly when a payload is stored, 201 exactly for a valid request, for that subject |
| Accounts.CorrectedCreateAccountOwnedByCaller | api/accounts_api.go:31-71 | behind the middleware the corrected handler always replies, and a valid request opens an account owned by the token's subject |
| Merchants.CreateMerchant | database/sqlc/merchant.go:9-31 | the new live merchant has the given user and name and is found under its id |
| Merchants.UpdateMerchant | database/sqlc/merchant.go:33-57 | renames a live merchant, keeping its owner and creation time; otherwise ErrNoRows |
| Merchants.GetMerchantByID | database/sqlc/merchant.go:59-76 | found exactly when the merchant exists and is not deleted |
| Merchants.ListMerchants | database/sqlc/merchant.go:78-114 | negative offset or limit is an error; otherwise exactly the page at offset of the user's live merchants in id order |
| Merchants.ListMerchantsWholeTable | database/sqlc/merchant.go:78-114 | a first page at least as long as the table lists every live merchant of the user |
| Merchants.DeleteMerchant | database/sqlc/merchant.go:116-130 | soft-deletes a live merchant and returns now; afterwards it can be neither read nor renamed |
| Merchants.RenameTwice | database/sqlc/merchant.go:33-57 | renaming twice keeps only the second name |
| Categories.CreateCategory | database/sqlc/category.go:9-34 | the new live category has the given parent, user and name and is found under its id |
| Categories.GetCategoryByID | database/sqlc/category.go:63-81 | found exactly when the category exists and is not deleted |
| Categories.ListCategories | database/sqlc/category.go:83-120 | negative offset or limit is an error; otherwise exactly the page at offset of the user's live categories in id order |
| Categories.ListCategoriesWholeTable | database/sqlc/category.go:83-120 | a first page at least as long as the table lists every live category of the user |
| Categories.DeleteCategory | database/sqlc/category.go:122-137 | soft-deletes a live category and returns now; a second delete fails |
| Categories.DeleteDoesNotCascade | database/sqlc/category.go:122-137 | deleting a parent category leaves its children live |
| RequestLocals.Stored | api/auth_middleware.go:54-56 | a request the middleware answers carries no locals; one it lets through carries the verified payload under its key and nothing else |
| RequestLocals.AssertUserID | api/transactions.go:33 | the `ctx.Locals("userID").(model.UserID)` assertion succeeds exactly when a user id is stored under "userID" |
| RequestLocals.UserIDAssertionPanics | api/auth_middleware.go:54-56 | behind the middleware the "userID" assertion fails on every request |
| RequestLocals.CallerID | api/user_roles_api.go:28 | the payload assertion succeeds exactly when an access payload is stored under "authorization_payload", giving its subject |
| RequestLocals.CallerIsTokenSubject | api/auth_middleware.go:48-56 | behind the middleware the caller is always known and is the subject of the verified access token |

## Left out

- HTTP plumbing is not modelled. That covers Fiber's context, JSON encoding of replies, body and query parsing, and the shared package-level `status` variable. Handlers take the already-decoded request, and `None` stands for a body that did not decode.
- HMAC and JWT text encoding are not modelled. A token is its structure, and its text is identified with it.
- bcrypt password hashing and the login and user endpoints are not modelled. The users table appears only as a map consulted by the refresh endpoint.
- The gcache role cache is a plain map. Its 200-entry bound and one-minute expiry are not modelled; its loader is modelled only as the predicate Permissions.Loads relating the map to GetUserRoleByID. The user-roles check that fills it is not part of this model.
- Validator reflection is not modelled. The `required` tags are modelled for the refresh request, for the page and date fields of the transaction list request, and, together with the `currency` tag, as one predicate for the account request. The transaction create request's tags are not modelled.
- Configuration, logging, startup and routing are left out: they have no effect on the modelled results.
- UpdateTransaction and UpdateCategory are left out, because their SQL does not match their parameters.
- Row scan and `Close` errors are modelled only for ListUsersByRole. Other repository lists cannot fail on a row.
- Connection failures and constraint violations are left out, except the `user_roles` unique constraint the grant handler relies on.
- Database UUID primary keys are modelled as natural numbers allocated in insertion order. This makes `ORDER BY id` insertion order.
- Sub-second time is not modelled. Go reads the clock several times within one request; the model uses one `now`.
- Non-ASCII case folding in `strings.ToLower` is not modelled. It cannot turn anything into the ASCII word "bearer" except ASCII letters.
- Code that cannot compile is not modelled: the two `authTokenMiddleWare` and `registerRoutes` definitions in one package, and the undefined `prospect`.
- Two definitions of `tokenCredentials`: the package has both the method `(*Server).tokenCredentials` (api/token_credentials.go:6-30) and the package function `tokenCredentials(user, server)` (api/users_api.go:152-176). The handlers' calls resolve to the package function, which the model follows. The two bodies differ only in a debug log line, so the model describes either one.
- The account, merchant, category and transaction handlers read `ctx.Locals("userID")`, which nothing stores, so as written they panic on every request (see "## Findings"). Of these, only createAccount and the parameters of createTransaction are modelled both as written and corrected. The others are modelled with the user id as a parameter, as if it were supplied.
- Transactions.CreatedNotesAreEmpty: it is stated for the parameters built from a given user id. As written, createTransaction panics before it builds them (api/transactions.go:33); Transactions.CorrectedCreateOwnedByCaller states the same fact for the corrected handler.
- Accounts.CreateAccountHandler: it takes the user id as a parameter and describes createAccount past its "userID" assertion. As written that assertion panics first (api/accounts_api.go:35); Accounts.CreateAccountAsWritten models that.
- Transactions.ListTransactionsHandler: the query parameters arrive as integers and instants, so the query parser's other failures (text that is not a number or not a date) are absent; its 422 is modelled only for values outside int32. It models listTransactionsByAccountID and listTransactionsByCategoryID. Their route parameter cannot be empty, because the owner id is a number here, so their "not provided" 400 is absent. With a ByUser owner it describes listTransactionsByUserID as if the user id were supplied; as written that handler panics at api/transactions.go:143.
- Refresh.ReplayedTokenIsRefused: it is stated for a presented token whose EXP is not `now` plus the refresh lifetime. A token expiring in that very second may be the very token the handler signs again (Refresh.RefreshIssuesNewToken says exactly when). Then the session keeps it, and it can be spent again, as in the source.
- Refresh.RefreshRotatesSession: its clause that the presented token no longer finds the session carries the same EXP condition, for the same reason.
- Refresh.ExpirySecondSessionNotFound: with whole-second time it covers only the instant `now == EXP`. Go compares nanosecond clocks, so in the source the window is the part of that second up to the expiry instant.
- UserRoles.ListUsersByRole: the query has no ORDER BY, so Postgres may return the user's rows in any order, and a page is a slice of that order. The model fixes the order to storage order (the table as a sequence), so its page contents hold for that order only.
- UserRoles.ListUsersByRoleAppends: the appended-after clause is about the model's storage order. In Postgres a revoke can free heap space that a later grant reuses, so a newer row can be listed before an older one.
- UserRoles.GetUserRoleByID: the query has `LIMIT 1` with no ORDER BY, so Postgres may return any of the user's rows. The model picks the first in storage order.
- Handlers other than the status mappings cited above are not modelled: the get, list, update and delete handlers of accounts, merchants and categories.
- 64-bit overflow of amounts and balances is not modelled; the core never adds them.
- Refresh.RefreshToken: a failing SaveRefreshToken answers 400 in the source. The model has no database failure, so that branch is absent.
- The role cache is a parameter of the checker. A failed role lookup counts as "not admin", as the source's ignored error does.

## Findings

| source | as written | input that shows it | evidently intended | confidence | as-written member | corrected member |
|---|---|---|---|---|---|---|
| token/jwt_token.go:40-65 | VerifyToken passes `Payload{}` by value as the claims and then asserts `*Payload` | a token CreateToken has just issued, verified in the same second | `&Payload{}`, so fresh tokens verify to their payload | not executed | TokenMaker.VerifyTokenAsWrittenRejectsFreshToken | TokenMaker.TokenRoundTrip |
| api/permissions.go:27-36 | withRoles rejects a payload whose SUB is non-empty and looks up the empty id otherwise | a logged-in admin with the role cached | reject an empty SUB and look up the subject's own role (through the corrected getRole of the next row) | not executed | Permissions.WithRolesRefusesLoggedInAdmin | Permissions.WithRolesCorrected |
| api/permissions.go:95 | the loader (line 82) stores the `db.UserRole` value GetUserRoleByID returns, and getRole asserts `role.(*db.UserRole)` without comma-ok, so every cache hit panics | any user id with a row in user_roles | return `&role` from the loader, or assert `db.UserRole` | not executed | Permissions.HeldRolePanics | Permissions.GetRole |
| api/permissions.go:38-64 | check returns true when no entry allows | a cached non-admin user on an admin-only route | return false when the list runs out | not executed | Permissions.CorrectedCheckRefusesNonAdmin | Permissions.CheckCorrected |
| api/users_api.go:152-176 | each step overwrites `err`, so only the last step's error is returned | no random id for the access token, non-negative refresh lifetime | return at the first failing step | not executed | Credentials.FailedAccessTokenIsMasked | Credentials.TokenCredentialsChecked |
| api/transactions.go:197-201 | the offset `(PageID - 1) * PageSize` is computed in int32 (likewise at 239-243) | page_id 2147483647, page_size 10: offset -20 and a 500 reply | compute the offset without wrap-around | not executed | Transactions.LastPageFailsAsWritten | Transactions.ListTransactionsHandlerCorrected |
| api/accounts_api.go:35 | the handlers assert `ctx.Locals("userID").(model.UserID)`, but the middleware stores only the access payload under "authorization_payload" (api/auth_middleware.go:55) | any request with a valid bearer token to createAccount | read the caller from the stored payload's SUB, as the user-roles handlers do | not executed | RequestLocals.UserIDAssertionPanics | RequestLocals.CallerIsTokenSubject |

=== FILE: accounts.dfy ===
/** The accounts repository of database/sqlc/accounts.go over the soft-delete
    table, and the parameters createAccount in api/accounts_api.go builds. */
module Accounts {
  import opened Base
  import opened SoftDelete
  import Currencies
  import opened Bearer
  import opened Jwt
  import opened AuthPayload
  import opened AuthMaker
  import opened AuthMiddleware
  import opened RequestLocals

  datatype Account = Account(userID: string, name: string, accountType: string, balance: int, currency: string)

  type AccountTable = SoftDelete.Table<Account>

  datatype CreateAccountParams = CreateAccountParams(userID: string, accountName: string, accountType: string,
                                                     balance: int, currency: string)

  function CreateAccount(t: AccountTable, args: CreateAccountParams, now: int): (r: (AccountTable, Record<Account>))
    ensures r.1.row.data == Account(args.userID, args.accountName, args.accountType, args.balance, args.currency)
    ensures Get(r.0, r.1.id) == Ok(r.1)
    ensures forall id :: 0 <= id < |t| ==> Get(r.0, id) == Get(t, id)
  {
    var data := Account(args.userID, args.accountName, args.accountType, args.balance, args.currency);
    InsertThenGet(t, data, now);
    var (t', rec) := Insert(t, data, now);
    assert forall id :: 0 <= id < |t| ==> t'[id] == t[id];
    (t', rec)
  }

  datatype UpdateAccountParams = UpdateAccountParams(accountID: nat, balance: int)

  /** UpdateAccount: only the balance of a live account changes; name, type,
      currency and owner stay as they were. */
  function UpdateAccount(t: AccountTable, args: UpdateAccountParams): (r: (AccountTable, Result<Record<Account>, DbError>))
    ensures r.1.Ok? <==> args.accountID < |t| && Live(t[args.accountID])
    ensures r.1.Err? ==> r.0 == t && r.1.error == ErrNoRows
    ensures r.1.Ok? ==> r.1.value.row.data == t[args.accountID].data.(balance := args.balance)
    ensures r.1.Ok? ==> Get(r.0, args.accountID) == r.1
    ensures forall id :: 0 <= id < |t| && id != args.accountID ==> Get(r.0, id) == Get(t, id)
  {
    Update(t, args.accountID, (a: Account) => a.(balance := args.balance))
  }

  function GetAccountByID(t: AccountTable, id: nat): (r: Result<Record<Account>, DbError>)
    ensures r.Ok? <==> id < |t| && Live(t[id])
    ensures r.Ok? ==> r.value.id == id && r.value.row == t[id]
    ensures r.Err? ==> r.error == ErrNoRows
  {
    Get(t, id)
  }

  datatype ListAccountParams = ListAccountParams(userID: string, limit: int, offset: int)

  /** The filter of the list query: the row belongs to the user. */
  function OfUser(userID: string): Account -> bool {
    (a: Account) => a.userID == userID
  }

  /** ListAccounts: one page of the user's live accounts in id order. */
  function ListAccounts(t: AccountTable, args: ListAccountParams): (r: Result<seq<Record<Account>>, DbError>)
    ensures r.Ok? <==> args.offset >= 0 && args.limit >= 0
    ensures r.Ok? ==> |r.value| <= args.limit && Ascending(r.value)
    ensures r.Ok? ==> forall k :: 0 <= k < |r.value| ==>
      r.value[k].id < |t| && r.value[k].row == t[r.value[k].id] && Live(r.value[k].row) && r.value[k].row.data.userID == args.userID
    ensures r.Ok? ==> IsPage(r.value, Select(t, OfUser(args.userID)), args.limit, args.offset)
  {
    var keep := OfUser(args.userID);
    var r := List(t, keep, args.limit, args.offset);
    assert r.Ok? ==> forall k :: 0 <= k < |r.value| ==> r.value[k] in Select(t, keep);
    r
  }

  /** A first page at least as long as the table holds every live row of the
      user, in id order. */
  lemma ListAccountsWholeTable(t: AccountTable, userID: string, limit: nat)
    requires limit >= |t|
    ensures ListAccounts(t, ListAccountParams(userID, limit, 0)) == Ok(Select(t, OfUser(userID)))
    ensures forall id :: 0 <= id < |t| && Live(t[id]) && t[id].data.userID == userID ==>
      Record(id, t[id]) in ListAccounts(t, ListAccountParams(userID, limit, 0)).value
  {
    ListWholeTable(t, OfUser(userID), limit);
  }

  function DeleteAccount(t: AccountTable, id: nat, now: int): (r: (AccountTable, Result<int, DbError>))
    ensures r.1.Ok? <==> id < |t| && Live(t[id])
    ensures r.1.Ok? ==> r.1.value == now
    ensures r.1.Ok? && now != ZeroTime ==> GetAccountByID(r.0, id).Err? && UpdateAccount(r.0, UpdateAccountParams(id, 0)).1.Err?
    ensures r.1.Err? ==> r.0 == t && r.1.error == ErrNoRows
  {
    Delete(t, id, now)
  }

  /** A deleted account can be neither deleted again nor updated. */
  lemma DeletedAccountIsFrozen(t: AccountTable, id: nat, now: int, later: int, balance: int)
    requires DeleteAccount(t, id, now).1.Ok? && now != ZeroTime
    ensures DeleteAccount(DeleteAccount(t, id, now).0, id, later).1 == Err(ErrNoRows)
    ensures UpdateAccount(DeleteAccount(t, id, now).0, UpdateAccountParams(id, balance)) ==
            (DeleteAccount(t, id, now).0, Err(ErrNoRows))
  {
  }

  /** createAccountRequest after body parsing. */
  datatype CreateAccountRequest = CreateAccountRequest(accountName: string, accountType: string, currency: string)

  /** The request's validation: three required fields and a supported currency. */
  predicate ValidRequest(req: CreateAccountRequest) {
    req.accountName != "" && req.accountType != "" && req.currency != "" && Currencies.IsSupportedCurrency(req.currency)
  }

  /** createAccount after body parsing: 400 on an invalid request, otherwise
      the account is created with balance 0 and answered with 201. */
  function CreateAccountHandler(t: AccountTable, userID: string, req: CreateAccountRequest, now: int): (r: (int, AccountTable))
    ensures r.0 == StatusCreated <==> ValidRequest(req)
    ensures r.0 != StatusCreated ==> r == (StatusBadRequest, t)
    ensures r.0 == StatusCreated ==> |r.1| == |t| + 1
    ensures r.0 == StatusCreated ==> r.1[|t|] == Row(Account(userID, req.accountName, req.accountType, 0, req.currency), now, ZeroTime)
    ensures r.0 == StatusCreated ==> r.1[|t|].data.currency in Currencies.Supported
  {
    if !ValidRequest(req) then (StatusBadRequest, t)
    else (StatusCreated, CreateAccount(t, CreateAccountParams(userID, req.accountName, req.accountType, 0, req.currency), now).0)
  }

  /** createAccount as written: the handler first asserts the "userID"
      local, and None is the panic when that fails; otherwise it proceeds as
      CreateAccountHandler does for that user. */
  function CreateAccountAsWritten(t: AccountTable, l: Locals, req: CreateAccountRequest, now: int): (r: Option<(int, AccountTable)>)
    ensures r.None? <==> AssertUserID(l).None?
    ensures r.Some? ==> (r.value.0 == StatusCreated <==> ValidRequest(req))
    ensures r.Some? && r.value.0 == StatusCreated ==> |r.value.1| == |t| + 1 && r.value.1[|t|].data.userID == AssertUserID(l).value
  {
    match AssertUserID(l)
    case None => None
    case Some(userID) => Some(CreateAccountHandler(t, userID, req, now))
  }

  /** No request that passes the middleware gets an answer from createAccount
      as written, however valid its body. */
  lemma CreateAccountPanicsBehindMiddleware(t: AccountTable, header: string, m: Maker, decode: string -> AuthToken,
                                            now: int, req: CreateAccountRequest)
    requires AuthTokenMiddleWare(header, m, decode, now).Next?
    ensures CreateAccountAsWritten(t, Stored(AuthTokenMiddleWare(header, m, decode, now)), req, now).None?
  {
    UserIDAssertionPanics(header, m, decode, now);
  }

  /** createAccount with the caller taken from the stored access payload. */
  function CreateAccountCorrected(t: AccountTable, l: Locals, req: CreateAccountRequest, now: int): (r: Option<(int, AccountTable)>)
    ensures r.None? <==> CallerID(l).None?
    ensures r.Some? ==> (r.value.0 == StatusCreated <==> ValidRequest(req))
    ensures r.Some? && r.value.0 == StatusCreated ==> |r.value.1| == |t| + 1 && r.value.1[|t|].data.userID == CallerID(l).value
  {
    match CallerID(l)
    case None => None
    case Some(userID) => Some(CreateAccountHandler(t, userID, req, now))
  }

  /** Behind the middleware the corrected handler answers every request, and
      a valid one opens an account owned by the token's subject. */
  lemma CorrectedCreateAccountOwnedByCaller(t: AccountTable, header: string, m: Maker, decode: string -> AuthToken,
                                            now: int, req: CreateAccountRequest)
    requires AuthTokenMiddleWare(header, m, decode, now).Next?
    ensures var r := CreateAccountCorrected(t, Stored(AuthTokenMiddleWare(header, m, decode, now)), req, now);
      r.Some? &&
      (ValidRequest(req) ==>
         r.value.0 == StatusCreated && r.value.1[|t|].data.userID == AuthTokenMiddleWare(header, m, decode, now).payload.sub)
  {
    CallerIsTokenSubject(header, m, decode, now);
  }
}

=== FILE: auth_maker.dfy ===
/** JWTTokenMaker of the `auth` package: two symmetric keys, access tokens
    signed with the secret key and refresh tokens with the refresh key. */
module AuthMaker {
  import opened Base
  import opened Jwt
  import opened AuthPayload
  import Text

  const MinimumSymmetricKeySize: nat := 32

  datatype Maker = Maker(secretKey: string, refreshKey: string)

  datatype KeySizeError = InvalidKeySize(required: nat)

  /** The claims carried in a token: either payload, as JSON. */
  datatype Claims = AccessClaims(access: AccessPayload) | RefreshClaims(refresh: RefreshPayload)

  type AuthToken = Token<Claims>

  /** JSON-decoding claims into an AccessPayload: fields the token lacks keep
      their zero values. */
  function AsAccess(c: Claims): AccessPayload {
    match c
    case AccessClaims(p) => p
    case RefreshClaims(p) => AccessPayload(NilUuid, p.sub, 0, p.exp)
  }

  /** JSON-decoding claims into a RefreshPayload: extra fields are dropped. */
  function AsRefresh(c: Claims): RefreshPayload {
    match c
    case AccessClaims(p) => RefreshPayload(p.sub, p.exp)
    case RefreshClaims(p) => p
  }

  /** What VerifyAccessToken / VerifyRefreshToken return: the payload and nil,
      the decoded claims with ErrExpiredToken, or nil with ErrInvalidToken. */
  datatype Verdict<P> = Verified(payload: P) | Expired(claims: P) | Invalid

  function VerdictError<P>(v: Verdict<P>): Option<TokenError> {
    match v
    case Verified(_) => None
    case Expired(_) => Some(ErrExpiredToken)
    case Invalid => Some(ErrInvalidToken)
  }

  /** NewJWTTokenMaker: both keys must be at least 32 bytes long. */
  function NewJWTTokenMaker(secretKey: string, refreshKey: string): (r: Result<Maker, KeySizeError>)
    ensures r.Ok? <==> (Text.Utf8Length(secretKey) >= MinimumSymmetricKeySize &&
                        Text.Utf8Length(refreshKey) >= MinimumSymmetricKeySize)
    ensures r.Ok? ==> r.value.secretKey == secretKey && r.value.refreshKey == refreshKey
    ensures r.Err? ==> r.error == InvalidKeySize(32)
    ensures |secretKey| >= 32 && |refreshKey| >= 32 ==> r.Ok?
  {
    if Text.Utf8Length(secretKey) < MinimumSymmetricKeySize || Text.Utf8Length(refreshKey) < MinimumSymmetricKeySize
    then Err(InvalidKeySize(MinimumSymmetricKeySize))
    else Ok(Maker(secretKey, refreshKey))
  }

  /** CreateAccessToken: an access payload signed HS256 with the secret key. */
  function CreateAccessToken(m: Maker, userID: string, duration: int, now: int, random: Option<Uuid>): (r: Result<AuthToken, UuidError>)
    ensures r.Ok? <==> random.Some?
    ensures r.Ok? ==> r.value == SignHS256(AccessClaims(AccessPayload(random.value, userID, now, now + duration)), m.secretKey)
  {
    match NewAccessPayload(userID, duration, now, random)
    case Err(e) => Err(e)
    case Ok(p) => Ok(SignHS256(AccessClaims(p), m.secretKey))
  }

  /** CreateRefreshToken: a refresh payload signed HS256 with the refresh key;
      it cannot fail. */
  function CreateRefreshToken(m: Maker, userID: string, duration: int, now: int): (r: Result<AuthToken, UuidError>)
    ensures r.Ok?
    ensures r.value == SignHS256(RefreshClaims(RefreshPayload(userID, now + duration)), m.refreshKey)
  {
    match NewRefreshPayload(userID, duration, now)
    case Err(e) => Err(e)
    case Ok(p) => Ok(SignHS256(RefreshClaims(p), m.refreshKey))
  }

  /** The error classification shared by both verifiers: an expired but
      otherwise valid token keeps its claims; every other failure is
      ErrInvalidToken with no payload. */
  function Classify<P>(parsed: Parsed<P, TokenError>): Verdict<P> {
    match parsed
    case Accepted(p) => Verified(p)
    case ClaimsInvalid(p, e) => if e == ErrExpiredToken then Expired(p) else Invalid
    case Failed => Invalid
  }

  /** VerifyAccessToken at time `now`. */
  function VerifyAccessToken(m: Maker, tok: AuthToken, now: int): (r: Verdict<AccessPayload>)
    ensures !r.Invalid? <==> tok.Signed? && IsHmac(tok.alg) && tok.key == m.secretKey
    ensures !r.Invalid? ==> r == (if now <= AsAccess(tok.claims).exp then Verified(AsAccess(tok.claims))
                                  else Expired(AsAccess(tok.claims)))
  {
    Classify(ParseWithClaims(tok, ByPointer, AsAccess, p => AccessValid(p, now), m.secretKey))
  }

  /** VerifyRefreshToken at time `now`: the same rule under the refresh key. */
  function VerifyRefreshToken(m: Maker, tok: AuthToken, now: int): (r: Verdict<RefreshPayload>)
    ensures !r.Invalid? <==> tok.Signed? && IsHmac(tok.alg) && tok.key == m.refreshKey
    ensures !r.Invalid? ==> r == (if now <= AsRefresh(tok.claims).exp then Verified(AsRefresh(tok.claims))
                                  else Expired(AsRefresh(tok.claims)))
  {
    Classify(ParseWithClaims(tok, ByPointer, AsRefresh, p => RefreshValid(p, now), m.refreshKey))
  }

  /** An expiry read back from a token, with the verification error. */
  datatype ExpiresAt = ExpiresAt(exp: int, err: Option<TokenError>)

  /** AccessTokenExpiresAt: EXP when verified or expired, 0 when invalid. */
  function AccessTokenExpiresAt(m: Maker, tok: AuthToken, now: int): (r: ExpiresAt)
    ensures r.err == VerdictError(VerifyAccessToken(m, tok, now))
    ensures r.err != Some(ErrInvalidToken) ==> r.exp == AsAccess(tok.claims).exp
    ensures r.err == Some(ErrInvalidToken) ==> r.exp == 0
  {
    match VerifyAccessToken(m, tok, now)
    case Verified(p) => ExpiresAt(p.exp, None)
    case Expired(p) => ExpiresAt(p.exp, Some(ErrExpiredToken))
    case Invalid => ExpiresAt(0, Some(ErrInvalidToken))
  }

  /** RefreshTokenExpiresAt: the same under the refresh key. */
  function RefreshTokenExpiresAt(m: Maker, tok: AuthToken, now: int): (r: ExpiresAt)
    ensures r.err == VerdictError(VerifyRefreshToken(m, tok, now))
    ensures r.err != Some(ErrInvalidToken) ==> r.exp == AsRefresh(tok.claims).exp
    ensures r.err == Some(ErrInvalidToken) ==> r.exp == 0
  {
    match VerifyRefreshToken(m, tok, now)
    case Verified(p) => ExpiresAt(p.exp, None)
    case Expired(p) => ExpiresAt(p.exp, Some(ErrExpiredToken))
    case Invalid => ExpiresAt(0, Some(ErrInvalidToken))
  }

  /** Create then verify: within its lifetime a new access token verifies to
      the payload it was made from; afterwards it is reported expired with
      the same claims. */
  lemma AccessTokenRoundTrip(m: Maker, userID: string, duration: int, now: int, id: Uuid, t: int)
    ensures var tok := CreateAccessToken(m, userID, duration, now, Some(id)).value;
      var p := AccessPayload(id, userID, now, now + duration);
      VerifyAccessToken(m, tok, t) == (if t <= now + duration then Verified(p) else Expired(p))
  {
  }

  /** Create then verify for refresh tokens. */
  lemma RefreshTokenRoundTrip(m: Maker, userID: string, duration: int, now: int, t: int)
    ensures var tok := CreateRefreshToken(m, userID, duration, now).value;
      var p := RefreshPayload(userID, now + duration);
      VerifyRefreshToken(m, tok, t) == (if t <= now + duration then Verified(p) else Expired(p))
  {
  }

  /** With distinct keys, neither kind of token is accepted as the other. */
  lemma KeysSeparateTokenKinds(m: Maker, userID: string, duration: int, now: int, id: Uuid, t: int)
    requires m.secretKey != m.refreshKey
    ensures VerifyAccessToken(m, CreateRefreshToken(m, userID, duration, now).value, t) == Invalid
    ensures VerifyRefreshToken(m, CreateAccessToken(m, userID, duration, now, Some(id)).value, t) == Invalid
  {
  }

  /** NewJWTTokenMaker does not insist on distinct keys; when they coincide a
      refresh token passes as an access token with a nil `jti` and `iat` 0. */
  lemma SharedKeyAdmitsRefreshAsAccess(m: Maker, userID: string, duration: int, now: int)
    requires m.secretKey == m.refreshKey
    requires duration >= 0
    ensures VerifyAccessToken(m, CreateRefreshToken(m, userID, duration, now).value, now)
         == Verified(AccessPayload(NilUuid, userID, 0, now + duration))
  {
  }

  /** Read-back of a fresh access token's expiry. */
  lemma AccessExpiryReadBack(m: Maker, userID: string, duration: int, now: int, id: Uuid)
    ensures var tok := CreateAccessToken(m, userID, duration, now, Some(id)).value;
      AccessTokenExpiresAt(m, tok, now)
        == ExpiresAt(now + duration, if duration < 0 then Some(ErrExpiredToken) else None)
  {
  }
}

=== FILE: auth_middleware.dfy ===
/** authTokenMiddleWare of api/auth_middleware.go, against the `auth` maker. */
module AuthMiddleware {
  import opened Base
  import opened Bearer
  import opened Jwt
  import opened AuthPayload
  import opened AuthMaker

  /** The middleware at time `now`; `decode` reads the token text taken from
      the header as a token. */
  function AuthTokenMiddleWare(header: string, m: Maker, decode: string -> AuthToken, now: int): (r: Response<AccessPayload>)
    ensures |header| == 0 ==> r == Reject(StatusUnauthorized, "authorization header not provided")
    ensures r.Reject? ==> r.status == StatusUnauthorized
    ensures ParseAuthorization(header).Err? ==>
      r == Reject(StatusUnauthorized, HeaderMessage(ParseAuthorization(header).error))
    ensures r.Next? <==> ParseAuthorization(header).Ok? &&
                         VerifyAccessToken(m, decode(ParseAuthorization(header).value), now).Verified?
    ensures r.Next? ==> r.key == AuthorizationPayloadKey
    ensures r.Next? ==> r.payload == VerifyAccessToken(m, decode(ParseAuthorization(header).value), now).payload
    ensures r.Next? ==> now <= r.payload.exp
  {
    match ParseAuthorization(header)
    case Err(e) => Reject(StatusUnauthorized, HeaderMessage(e))
    case Ok(text) =>
      match VerifyAccessToken(m, decode(text), now)
      case Verified(p) => Next(AuthorizationPayloadKey, p)
      case Expired(_) => Reject(StatusUnauthorized, ErrorMessage(ErrExpiredToken))
      case Invalid => Reject(StatusUnauthorized, ErrorMessage(ErrInvalidToken))
  }

  /** Expired and invalid tokens are both answered with 401 and the
      verifier's message; nothing is stored. */
  lemma VerifyErrorsAreUnauthorized(header: string, m: Maker, decode: string -> AuthToken, now: int)
    requires ParseAuthorization(header).Ok?
    requires !VerifyAccessToken(m, decode(ParseAuthorization(header).value), now).Verified?
    ensures var v := VerifyAccessToken(m, decode(ParseAuthorization(header).value), now);
      AuthTokenMiddleWare(header, m, decode, now) == Reject(StatusUnauthorized, ErrorMessage(VerdictError(v).value))
  {
  }
}

=== FILE: auth_payload.dfy ===
/** Access and refresh token payloads of the `auth` package. */
module AuthPayload {
  import opened Base

  datatype TokenError = ErrInvalidToken | ErrExpiredToken

  function ErrorMessage(e: TokenError): string {
    match e
    case ErrInvalidToken => "token is invalid"
    case ErrExpiredToken => "token has expired"
  }

  /** Claims of an access token: `jti`, `sub`, `iat` and `exp` (RFC 7519,
      section 4.1), with times in Unix seconds. */
  datatype AccessPayload = AccessPayload(jti: Uuid, sub: string, iat: int, exp: int)

  /** Claims of a refresh token: only `sub` and `exp`. */
  datatype RefreshPayload = RefreshPayload(sub: string, exp: int)

  /** uuid.NewRandom could not read the random source. */
  datatype UuidError = UuidError

  /** NewAccessPayload at time `now`; `random` is the UUID the random source
      yields, or None when it fails. */
  function NewAccessPayload(userID: string, duration: int, now: int, random: Option<Uuid>): (r: Result<AccessPayload, UuidError>)
    ensures r.Ok? <==> random.Some?
    ensures r.Ok? ==> r.value.jti == random.value && r.value.sub == userID
    ensures r.Ok? ==> r.value.iat == now && r.value.exp == now + duration
  {
    match random
    case None => Err(UuidError)
    case Some(id) => Ok(AccessPayload(id, userID, now, now + duration))
  }

  /** AccessPayload.Valid: nil, or ErrExpiredToken once `now` is after EXP. */
  function AccessValid(p: AccessPayload, now: int): (r: Option<TokenError>)
    ensures r.Some? ==> r.value == ErrExpiredToken
    ensures r.Some? <==> p.exp < now
  {
    if now > p.exp then Some(ErrExpiredToken) else None
  }

  /** NewRefreshPayload: never fails, and carries no identifier or issue
      time. */
  function NewRefreshPayload(userID: string, duration: int, now: int): (r: Result<RefreshPayload, UuidError>)
    ensures r.Ok?
    ensures r.value.sub == userID && r.value.exp == now + duration
  {
    Ok(RefreshPayload(userID, now + duration))
  }

  /** RefreshPayload.Valid: the same expiry rule as access payloads. */
  function RefreshValid(p: RefreshPayload, now: int): (r: Option<TokenError>)
    ensures r.Some? ==> r.value == ErrExpiredToken
    ensures r.Some? <==> p.exp < now
  {
    if now > p.exp then Some(ErrExpiredToken) else None
  }

  /** A new access payload is valid from its issue time up to and including
      its expiry second, and expired afterwards. */
  lemma FreshAccessPayloadLifetime(userID: string, duration: int, now: int, id: Uuid, t: int)
    requires now <= t
    ensures var p := NewAccessPayload(userID, duration, now, Some(id)).value;
      AccessValid(p, t).None? <==> t <= now + duration
  {
  }

  /** Refresh payloads carry no unique part: two of them for the same user
      are equal exactly when they expire in the same second. */
  lemma RefreshPayloadsCollide(userID: string, d1: int, now1: int, d2: int, now2: int)
    ensures NewRefreshPayload(userID, d1, now1) == NewRefreshPayload(userID, d2, now2) <==> now1 + d1 == now2 + d2
  {
  }
}

=== FILE: base.dfy ===
/** Shared value types: optional values, results, UUIDs and the database errors
    the repository layer can report. */
module Base {

  /** Go's "nil or a value". */
  datatype Option<+T> = None | Some(value: T)

  /** Go's `(value, error)` pair, with the error case carrying its reason. */
  datatype Result<+T, +E> = Ok(value: T) | Err(error: E)

  /** A 128-bit UUID, as produced by uuid.NewRandom. */
  type Uuid = x: int | 0 <= x < 0x1_0000_0000_0000_0000_0000_0000_0000_0000

  /** The zero UUID, which JSON decoding leaves in a missing `jti` claim. */
  const NilUuid: Uuid := 0

  /** Errors surfaced by the SQL layer. */
  datatype DbError =
    | ErrNoRows          // sql.ErrNoRows: a `:one` query matched nothing
    | UniqueViolation    // Postgres 23505
    | NegativeOffset     // Postgres: "OFFSET must not be negative"
    | NegativeLimit      // Postgres: "LIMIT must not be negative"
    | ScanError          // rows.Scan failed on a row

  /** Unix seconds of '0001-01-01 00:00:00Z', Go's zero time.Time; a live row
      keeps it in `deleted_at`. */
  const ZeroTime: int := -62135596800

  function Min(a: int, b: int): int { if a <= b then a else b }

  /** The rows a query keeps, in order. */
  function Filter<T>(s: seq<T>, keep: T -> bool): (r: seq<T>)
    ensures |r| <= |s|
    ensures forall i :: 0 <= i < |r| ==> r[i] in s && keep(r[i])
    ensures forall i :: 0 <= i < |s| && keep(s[i]) ==> s[i] in r
    ensures (forall i :: 0 <= i < |s| ==> keep(s[i])) ==> r == s
  {
    if |s| == 0 then []
    else
      var rest := Filter(s[1..], keep);
      assert forall i :: 1 <= i < |s| ==> s[i] == s[1..][i - 1];
      if keep(s[0]) then [s[0]] + rest else rest
  }

  /** Filter keeps the order and multiplicity of its input: it splits over
      concatenation, so it is determined by what it does to one element. */
  lemma {:induction false} FilterConcat<T>(a: seq<T>, b: seq<T>, keep: T -> bool)
    ensures Filter(a + b, keep) == Filter(a, keep) + Filter(b, keep)
    decreases |a|
  {
    if |a| == 0 {
      assert a + b == b;
    } else {
      assert (a + b)[1..] == a[1..] + b;
      FilterConcat(a[1..], b, keep);
    }
  }

  /** Filter on one element keeps it exactly when `keep` holds. */
  lemma FilterOfOne<T>(x: T, keep: T -> bool)
    ensures Filter([x], keep) == if keep(x) then [x] else []
  {
  }

  /** `p` is the page of `all` that SQL `OFFSET offset LIMIT limit` returns:
      as many rows as remain after the offset, at most `limit`, in order. */
  ghost predicate IsPage<T>(p: seq<T>, all: seq<T>, limit: nat, offset: nat) {
    && |p| == Min(limit, if offset <= |all| then |all| - offset else 0)
    && forall k :: 0 <= k < |p| ==> p[k] == all[offset + k]
  }

  /** SQL `OFFSET offset LIMIT limit` over an ordered result. */
  function Window<T>(s: seq<T>, limit: nat, offset: nat): (w: seq<T>)
    ensures IsPage(w, s, limit, offset)
  {
    var from := Min(offset, |s|);
    var to := Min(from + limit, |s|);
    s[from..to]
  }

  /** A page is determined by its bounds. */
  lemma PageIsUnique<T>(p: seq<T>, q: seq<T>, all: seq<T>, limit: nat, offset: nat)
    requires IsPage(p, all, limit, offset) && IsPage(q, all, limit, offset)
    ensures p == q
  {
  }

  /** Paging is contiguous: a page of `n` rows followed by the page of `m`
      rows that starts where it ends is the page of `n + m` rows. */
  lemma PagesConcatenate<T>(all: seq<T>, n: nat, m: nat, offset: nat)
    ensures Window(all, n, offset) + Window(all, m, offset + n) == Window(all, n + m, offset)
  {
    var w := Window(all, n, offset) + Window(all, m, offset + n);
    assert IsPage(w, all, n + m, offset);
    PageIsUnique(w, Window(all, n + m, offset), all, n + m, offset);
  }

  /** The first page is everything once the limit covers the whole result. */
  lemma WholeFirstPage<T>(all: seq<T>, limit: nat)
    requires limit >= |all|
    ensures Window(all, limit, 0) == all
  {
    assert IsPage(all, all, limit, 0);
    PageIsUnique(all, Window(all, limit, 0), all, limit, 0);
  }

  /** The HTTP status codes the handlers use. */
  const StatusOK := 200
  const StatusCreated := 201
  const StatusBadRequest := 400
  const StatusUnauthorized := 401
  const StatusForbidden := 403
  const StatusNotFound := 404
  const StatusUnprocessableEntity := 422
  const StatusInternalServerError := 500
}

=== FILE: bearer.dfy ===
/** Reading the `Authorization: Bearer <token>` request header (section 2.1
    of RFC 6750), shared by both authentication middlewares. The scheme name
    is matched case-insensitively, as section 2.1 of RFC 7235 allows. */
module Bearer {
  import opened Base
  import Text

  const AuthorizationHeaderKey := "authorization"
  const AuthorizationTypeBearer := "bearer"
  const AuthorizationPayloadKey := "authorization_payload"

  datatype HeaderError = NotProvided | InvalidFormat | UnsupportedType

  function HeaderMessage(e: HeaderError): string {
    match e
    case NotProvided => "authorization header not provided"
    case InvalidFormat => "invalid authorization header format"
    case UnsupportedType => "authorization type is not supported by the server"
  }

  /** What a middleware does with a request: answer it with an error status,
      or store the payload under `key` in the request locals and call the
      next handler. */
  datatype Response<P> = Reject(status: int, message: string) | Next(key: string, payload: P)

  /** Any spelling of "bearer" up to letter case. */
  predicate IsBearerScheme(s: string) {
    Text.EqualFold(s, AuthorizationTypeBearer)
  }

  /** The header checks both middlewares run before verifying: present, at
      least two white-space separated fields, a bearer scheme; the token is
      the second field. */
  function ParseAuthorization(header: string): (r: Result<string, HeaderError>)
    ensures r == Err(NotProvided) <==> |header| == 0
    ensures r == Err(InvalidFormat) <==> |header| > 0 && |Text.Fields(header)| < 2
    ensures r == Err(UnsupportedType) <==> |Text.Fields(header)| >= 2 && !IsBearerScheme(Text.Fields(header)[0])
    ensures r.Ok? <==> |Text.Fields(header)| >= 2 && IsBearerScheme(Text.Fields(header)[0])
    ensures r.Ok? ==> r.value == Text.Fields(header)[1]
  {
    if Text.Utf8Length(header) == 0 then Err(NotProvided)
    else
      var fields := Text.Fields(header);
      if |fields| < 2 then Err(InvalidFormat)
      else
        Text.LowerEqualsIffEqualFold(fields[0], AuthorizationTypeBearer);
        if Text.Lower(fields[0]) != AuthorizationTypeBearer then Err(UnsupportedType)
        else Ok(fields[1])
  }

  /** A non-empty header made only of white space has no fields, so it is
      rejected as badly formatted. */
  lemma BlankHeaderIsInvalidFormat(header: string)
    requires |header| > 0
    requires forall i :: 0 <= i < |header| ==> Text.IsSpace(header[i])
    ensures ParseAuthorization(header) == Err(InvalidFormat)
  {
    Text.FieldsEmptyIffBlank(header);
  }

  /** A well-formed header yields exactly its second field, whatever fields
      follow it. */
  lemma BearerHeaderYieldsSecondField(scheme: string, token: string, extra: seq<string>)
    requires IsBearerScheme(scheme) && Text.IsWord(scheme) && Text.IsWord(token)
    requires forall k :: 0 <= k < |extra| ==> Text.IsWord(extra[k])
    ensures ParseAuthorization(Text.JoinWords([scheme, token] + extra)) == Ok(token)
  {
    var ws := [scheme, token] + extra;
    AllWords(scheme, token, extra);
    Text.FieldsOfJoin(ws);
    ParseFields(Text.JoinWords(ws), ws);
  }

  lemma AllWords(scheme: string, token: string, extra: seq<string>)
    requires Text.IsWord(scheme) && Text.IsWord(token)
    requires forall k :: 0 <= k < |extra| ==> Text.IsWord(extra[k])
    ensures forall k :: 0 <= k < |[scheme, token] + extra| ==> Text.IsWord(([scheme, token] + extra)[k])
  {
    var ws := [scheme, token] + extra;
    forall k | 0 <= k < |ws| ensures Text.IsWord(ws[k]) {
      if k >= 2 { assert ws[k] == extra[k - 2]; }
    }
  }

  lemma ParseFields(header: string, ws: seq<string>)
    requires Text.Fields(header) == ws
    requires |ws| >= 2 && IsBearerScheme(ws[0])
    ensures ParseAuthorization(header) == Ok(ws[1])
  {
  }
}

=== FILE: categories.dfy ===
/** The categories repository of database/sqlc/category.go over the
    soft-delete table. */
module Categories {
  import opened Base
  import opened SoftDelete

  /** A category and the id of its parent category, stored as given. */
  datatype Category = Category(parentID: nat, userID: string, name: string)

  type CategoryTable = SoftDelete.Table<Category>

  datatype CreateCategoryParams = CreateCategoryParams(parentID: nat, userID: string, name: string)

  function CreateCategory(t: CategoryTable, args: CreateCategoryParams, now: int): (r: (CategoryTable, Record<Category>))
    ensures r.1.row.data == Category(args.parentID, args.userID, args.name)
    ensures Get(r.0, r.1.id) == Ok(r.1)
    ensures forall id :: 0 <= id < |t| ==> Get(r.0, id) == Get(t, id)
  {
    var data := Category(args.parentID, args.userID, args.name);
    InsertThenGet(t, data, now);
    var (t', rec) := Insert(t, data, now);
    assert forall id :: 0 <= id < |t| ==> t'[id] == t[id];
    (t', rec)
  }

  function GetCategoryByID(t: CategoryTable, id: nat): (r: Result<Record<Category>, DbError>)
    ensures r.Ok? <==> id < |t| && Live(t[id])
    ensures r.Ok? ==> r.value.id == id && r.value.row == t[id]
    ensures r.Err? ==> r.error == ErrNoRows
  {
    Get(t, id)
  }

  datatype ListCategoryParams = ListCategoryParams(userID: string, limit: int, offset: int)

  /** The filter of the list query: the row belongs to the user. */
  function OfUser(userID: string): Category -> bool {
    (c: Category) => c.userID == userID
  }

  /** ListCategories: one page of the user's live categories in id order. */
  function ListCategories(t: CategoryTable, args: ListCategoryParams): (r: Result<seq<Record<Category>>, DbError>)
    ensures r.Ok? <==> args.offset >= 0 && args.limit >= 0
    ensures r.Ok? ==> |r.value| <= args.limit && Ascending(r.value)
    ensures r.Ok? ==> forall k :: 0 <= k < |r.value| ==>
      r.value[k].id < |t| && r.value[k].row == t[r.value[k].id] && Live(r.value[k].row) && r.value[k].row.data.userID == args.userID
    ensures r.Ok? ==> IsPage(r.value, Select(t, OfUser(args.userID)), args.limit, args.offset)
  {
    var keep := OfUser(args.userID);
    var r := List(t, keep, args.limit, args.offset);
    assert r.Ok? ==> forall k :: 0 <= k < |r.value| ==> r.value[k] in Select(t, keep);
    r
  }

  /** A first page at least as long as the table holds every live row of the
      user, in id order. */
  lemma ListCategoriesWholeTable(t: CategoryTable, userID: string, limit: nat)
    requires limit >= |t|
    ensures ListCategories(t, ListCategoryParams(userID, limit, 0)) == Ok(Select(t, OfUser(userID)))
    ensures forall id :: 0 <= id < |t| && Live(t[id]) && t[id].data.userID == userID ==>
      Record(id, t[id]) in ListCategories(t, ListCategoryParams(userID, limit, 0)).value
  {
    ListWholeTable(t, OfUser(userID), limit);
  }

  function DeleteCategory(t: CategoryTable, id: nat, now: int): (r: (CategoryTable, Result<int, DbError>))
    ensures r.1.Ok? <==> id < |t| && Live(t[id])
    ensures r.1.Ok? ==> r.1.value == now
    ensures r.1.Ok? && now != ZeroTime ==> GetCategoryByID(r.0, id).Err? && Delete(r.0, id, now).1.Err?
    ensures r.1.Err? ==> r.0 == t && r.1.error == ErrNoRows
  {
    Delete(t, id, now)
  }

  /** Deleting a parent category leaves its children live: the soft delete
      does not cascade. */
  lemma DeleteDoesNotCascade(t: CategoryTable, parent: nat, child: nat, now: int)
    requires child != parent && child < |t| && Live(t[child]) && t[child].data.parentID == parent
    ensures GetCategoryByID(DeleteCategory(t, parent, now).0, child).Ok?
  {
  }
}

=== FILE: credentials.dfy ===
/** tokenCredentials of api/users_api.go, which the handlers call (the method
    of the same name in api/token_credentials.go has the same steps): issue
    an access and a refresh token for a user and read back when each
    expires. */
module Credentials {
  import opened Base
  import opened Jwt
  import opened AuthPayload
  import opened AuthMaker

  /** The two token lifetimes of the server configuration, in seconds. */
  datatype Config = Config(tokenDuration: int, refreshTokenDuration: int)

  datatype User = User(id: string, email: string)

  datatype CredentialError = PayloadFailed(cause: UuidError) | ExpiryFailed(reason: TokenError)

  /** The five named results of tokenCredentials. */
  datatype Issued = Issued(accessToken: AuthToken, accessExp: int, refreshToken: AuthToken, refreshExp: int,
                           err: Option<CredentialError>)

  function ExpiryErr(e: Option<TokenError>): Option<CredentialError> {
    match e
    case None => None
    case Some(reason) => Some(ExpiryFailed(reason))
  }

  /** tokenCredentials as written: the four steps run one after another and
      each assignment to `err` overwrites the last, so only the error of the
      final step (reading the refresh token's expiry) is returned. A failed
      access token creation leaves the empty token, whose expiry reads as 0. */
  function TokenCredentials(m: Maker, user: User, cfg: Config, now: int, random: Option<Uuid>): (r: Issued)
    ensures r.err.None? <==> cfg.refreshTokenDuration >= 0
    ensures r.err.Some? ==> r.err.value == ExpiryFailed(ErrExpiredToken)
    ensures random.Some? ==> r.accessToken.Signed? && r.accessToken.key == m.secretKey &&
                             r.accessToken.claims == AccessClaims(AccessPayload(random.value, user.id, now, now + cfg.tokenDuration))
    ensures random.Some? ==> r.accessExp == now + cfg.tokenDuration
    ensures random.None? ==> r.accessToken == EmptyToken() && r.accessExp == 0
    ensures r.refreshToken.Signed? && r.refreshToken.key == m.refreshKey &&
            r.refreshToken.claims == RefreshClaims(RefreshPayload(user.id, now + cfg.refreshTokenDuration))
    ensures r.refreshExp == now + cfg.refreshTokenDuration
  {
    var accessToken := match CreateAccessToken(m, user.id, cfg.tokenDuration, now, random)
      case Ok(t) => t
      case Err(_) => EmptyToken();
    var access := AccessTokenExpiresAt(m, accessToken, now);
    var refreshToken := match CreateRefreshToken(m, user.id, cfg.refreshTokenDuration, now)
      case Ok(t) => t
      case Err(_) => EmptyToken();
    var refresh := RefreshTokenExpiresAt(m, refreshToken, now);
    Issued(accessToken, access.exp, refreshToken, refresh.exp, ExpiryErr(refresh.err))
  }

  /** The input that shows the masking: when no random id is available the
      access token cannot be created, yet no error is returned and the caller
      hands out an empty access token that no verifier accepts. */
  lemma FailedAccessTokenIsMasked(m: Maker, user: User, cfg: Config, now: int)
    requires cfg.refreshTokenDuration >= 0
    ensures var r := TokenCredentials(m, user, cfg, now, None);
      r.err.None? && VerifyAccessToken(m, r.accessToken, now).Invalid?
  {
  }

  /** An access lifetime that is already over is masked the same way. */
  lemma ExpiredAccessTokenIsMasked(m: Maker, user: User, cfg: Config, now: int, id: Uuid)
    requires cfg.tokenDuration < 0 <= cfg.refreshTokenDuration
    ensures var r := TokenCredentials(m, user, cfg, now, Some(id));
      r.err.None? && !VerifyAccessToken(m, r.accessToken, now).Verified?
  {
  }

  /** tokenCredentials as evidently intended: stop at the first failing step
      and return its error. */
  function TokenCredentialsChecked(m: Maker, user: User, cfg: Config, now: int, random: Option<Uuid>): (r: Issued)
    ensures r.err.None? <==> random.Some? && cfg.tokenDuration >= 0 && cfg.refreshTokenDuration >= 0
    ensures random.None? ==> r.err == Some(PayloadFailed(UuidError))
    ensures r.err.None? ==> VerifyAccessToken(m, r.accessToken, now) == Verified(AccessPayload(random.value, user.id, now, r.accessExp))
    ensures r.err.None? ==> VerifyRefreshToken(m, r.refreshToken, now) == Verified(RefreshPayload(user.id, r.refreshExp))
    ensures r.err.None? ==> r.accessExp == now + cfg.tokenDuration && r.refreshExp == now + cfg.refreshTokenDuration
  {
    var none := Issued(EmptyToken(), 0, EmptyToken(), 0, None);
    match CreateAccessToken(m, user.id, cfg.tokenDuration, now, random)
    case Err(e) => none.(err := Some(PayloadFailed(e)))
    case Ok(accessToken) =>
      var access := AccessTokenExpiresAt(m, accessToken, now);
      if access.err.Some? then none.(accessToken := accessToken, err := ExpiryErr(access.err))
      else
        var refreshToken := CreateRefreshToken(m, user.id, cfg.refreshTokenDuration, now).value;
        var refresh := RefreshTokenExpiresAt(m, refreshToken, now);
        Issued(accessToken, access.exp, refreshToken, refresh.exp, ExpiryErr(refresh.err))
  }

  /** Whenever the checked version reports success, the version as written
      returns the same tokens and expiries. */
  lemma CheckedAgreesOnSuccess(m: Maker, user: User, cfg: Config, now: int, random: Option<Uuid>)
    requires TokenCredentialsChecked(m, user, cfg, now, random).err.None?
    ensures TokenCredentials(m, user, cfg, now, random) == TokenCredentialsChecked(m, user, cfg, now, random)
  {
  }
}

=== FILE: currencies.dfy ===
/** The ISO 4217 currency codes accounts may be opened in. */
module Currencies {
  import Text

  const USD := "USD"
  const EUR := "EUR"
  const KES := "KES"
  const UGX := "UGX"
  const TZS := "TZS"

  /** The supported codes, as a set. */
  const Supported: set<string> := {USD, EUR, KES, UGX, TZS}

  /** The switch over the five constants: exact, case-sensitive matching. */
  function IsSupportedCurrency(currency: string): (r: bool)
    ensures r <==> currency in Supported
    ensures r ==> |currency| == 3
  {
    match currency
    case "KES" => true
    case "USD" => true
    case "TZS" => true
    case "UGX" => true
    case "EUR" => true
    case _ => false
  }

  /** Every supported code is written in upper case, so the lower-case
      spelling of a supported code is always rejected. */
  lemma LowerCaseRejected(currency: string)
    requires IsSupportedCurrency(currency)
    ensures Text.Lower(currency) != currency
    ensures !IsSupportedCurrency(Text.Lower(currency))
  {
    var l := Text.Lower(currency);
    assert l[0] == Text.LowerChar(currency[0]);
    assert 'a' <= l[0] <= 'z';
  }

  /** The concrete case named by the currency test data: "usd" is refused. */
  lemma LowerUsdRejected()
    ensures !IsSupportedCurrency("usd")
    ensures IsSupportedCurrency(USD)
  {
    LowerCaseRejected(USD);
    assert Text.Lower(USD) == "usd";
  }
}

=== FILE: jwt.dfy ===
/** The part of dgrijalva/jwt-go the makers use, with signing abstracted.

    A token is seen through its structure: the `alg` of its header, its claims
    and the key its signature was computed with. A text that does not split
    into a decodable header, claims and signature is `Malformed`. HMAC itself
    is not modelled: a signature verifies under a key exactly when it was
    produced with that key. */
module Jwt {
  import opened Base

  /** Signing methods a header can name; `Unregistered` is one jwt-go does not
      know ("signing method (alg) is unavailable"). */
  datatype Alg = HS256 | HS384 | HS512 | RS256 | ES256 | NoneAlg | Unregistered(name: string)

  /** The `*jwt.SigningMethodHMAC` family. */
  predicate IsHmac(alg: Alg) {
    alg == HS256 || alg == HS384 || alg == HS512
  }

  datatype Token<C> = Signed(alg: Alg, claims: C, key: string) | Malformed(text: string)

  /** The empty token text: what a failed Create* hands back. */
  function EmptyToken<C>(): Token<C> {
    Malformed("")
  }

  /** jwt.NewWithClaims(jwt.SigningMethodHS256, claims).SignedString(key). */
  function SignHS256<C>(claims: C, key: string): (t: Token<C>)
    ensures t.Signed? && t.alg == HS256 && t.claims == claims && t.key == key
  {
    Signed(HS256, claims, key)
  }

  /** How the claims destination is passed to ParseWithClaims: as a pointer
      (`&claims`) or as a struct value (`Payload{}`). JSON cannot decode into
      a struct held by value in a non-empty interface. */
  datatype ClaimsTarget = ByPointer | ByValue

  /** The outcome of ParseWithClaims as the makers see it: success; a claims
      check that failed on a correctly signed token (the claims stay
      decoded); or any other failure. */
  datatype Parsed<P, E> = Accepted(claims: P) | ClaimsInvalid(claims: P, inner: E) | Failed

  /** ParseWithClaims with a keyfunc that accepts only HMAC methods and
      returns `key`. The steps run in jwt-go's order: decode, keyfunc, claims
      Valid(), signature. A bad signature overwrites the claims error, so only
      a correctly signed token reports its claims error. */
  function ParseWithClaims<C, P, E>(tok: Token<C>, target: ClaimsTarget, decode: C -> P,
                                    valid: P -> Option<E>, key: string): (r: Parsed<P, E>)
    ensures !r.Failed? <==> tok.Signed? && target.ByPointer? && IsHmac(tok.alg) && tok.key == key
    ensures !r.Failed? ==> r.claims == decode(tok.claims)
    ensures r.ClaimsInvalid? <==> !r.Failed? && valid(decode(tok.claims)).Some?
    ensures r.ClaimsInvalid? ==> r.inner == valid(decode(tok.claims)).value
  {
    match tok
    case Malformed(_) => Failed
    case Signed(alg, c, signedWith) =>
      if target.ByValue? then Failed
      else if !IsHmac(alg) then Failed
      else
        var p := decode(c);
        if signedWith != key then Failed
        else match valid(p)
          case Some(e) => ClaimsInvalid(p, e)
          case None => Accepted(p)
  }
}

=== FILE: merchants.dfy ===
/** The merchant repository of database/sqlc/merchant.go over the soft-delete
    table. */
module Merchants {
  import opened Base
  import opened SoftDelete

  datatype Merchant = Merchant(userID: string, name: string)

  type MerchantTable = SoftDelete.Table<Merchant>

  datatype CreateMerchantParams = CreateMerchantParams(userID: string, name: string)

  function CreateMerchant(t: MerchantTable, args: CreateMerchantParams, now: int): (r: (MerchantTable, Record<Merchant>))
    ensures r.1.row.data == Merchant(args.userID, args.name)
    ensures Get(r.0, r.1.id) == Ok(r.1)
    ensures forall id :: 0 <= id < |t| ==> Get(r.0, id) == Get(t, id)
  {
    var data := Merchant(args.userID, args.name);
    InsertThenGet(t, data, now);
    var (t', rec) := Insert(t, data, now);
    assert forall id :: 0 <= id < |t| ==> t'[id] == t[id];
    (t', rec)
  }

  datatype UpdateMerchantParams = UpdateMerchantParams(merchantID: nat, name: string)

  /** UpdateMerchant: only the name of a live merchant changes. */
  function UpdateMerchant(t: MerchantTable, args: UpdateMerchantParams): (r: (MerchantTable, Result<Record<Merchant>, DbError>))
    ensures r.1.Ok? <==> args.merchantID < |t| && Live(t[args.merchantID])
    ensures r.1.Err? ==> r.0 == t && r.1.error == ErrNoRows
    ensures r.1.Ok? ==> r.1.value.row.data == Merchant(t[args.merchantID].data.userID, args.name)
    ensures r.1.Ok? ==> r.1.value.row.createdAt == t[args.merchantID].createdAt
    ensures r.1.Ok? ==> Get(r.0, args.merchantID) == r.1
    ensures forall id :: 0 <= id < |t| && id != args.merchantID ==> Get(r.0, id) == Get(t, id)
  {
    Update(t, args.merchantID, (m: Merchant) => m.(name := args.name))
  }

  function GetMerchantByID(t: MerchantTable, id: nat): (r: Result<Record<Merchant>, DbError>)
    ensures r.Ok? <==> id < |t| && Live(t[id])
    ensures r.Ok? ==> r.value.id == id && r.value.row == t[id]
    ensures r.Err? ==> r.error == ErrNoRows
  {
    Get(t, id)
  }

  datatype ListMerchantParams = ListMerchantParams(userID: string, limit: int, offset: int)

  /** The filter of the list query: the row belongs to the user. */
  function OfUser(userID: string): Merchant -> bool {
    (m: Merchant) => m.userID == userID
  }

  /** ListMerchants: one page of the user's live merchants in id order. */
  function ListMerchants(t: MerchantTable, args: ListMerchantParams): (r: Result<seq<Record<Merchant>>, DbError>)
    ensures r.Ok? <==> args.offset >= 0 && args.limit >= 0
    ensures r.Ok? ==> |r.value| <= args.limit && Ascending(r.value)
    ensures r.Ok? ==> forall k :: 0 <= k < |r.value| ==>
      r.value[k].id < |t| && r.value[k].row == t[r.value[k].id] && Live(r.value[k].row) && r.value[k].row.data.userID == args.userID
    ensures r.Ok? ==> IsPage(r.value, Select(t, OfUser(args.userID)), args.limit, args.offset)
  {
    var keep := OfUser(args.userID);
    var r := List(t, keep, args.limit, args.offset);
    assert r.Ok? ==> forall k :: 0 <= k < |r.value| ==> r.value[k] in Select(t, keep);
    r
  }

  /** A first page at least as long as the table holds every live row of the
      user, in id order. */
  lemma ListMerchantsWholeTable(t: MerchantTable, userID: string, limit: nat)
    requires limit >= |t|
    ensures ListMerchants(t, ListMerchantParams(userID, limit, 0)) == Ok(Select(t, OfUser(userID)))
    ensures forall id :: 0 <= id < |t| && Live(t[id]) && t[id].data.userID == userID ==>
      Record(id, t[id]) in ListMerchants(t, ListMerchantParams(userID, limit, 0)).value
  {
    ListWholeTable(t, OfUser(userID), limit);
  }

  function DeleteMerchant(t: MerchantTable, id: nat, now: int): (r: (MerchantTable, Result<int, DbError>))
    ensures r.1.Ok? <==> id < |t| && Live(t[id])
    ensures r.1.Ok? ==> r.1.value == now
    ensures r.1.Ok? && now != ZeroTime ==> GetMerchantByID(r.0, id).Err? && UpdateMerchant(r.0, UpdateMerchantParams(id, "")).1.Err?
    ensures r.1.Err? ==> r.0 == t && r.1.error == ErrNoRows
  {
    Delete(t, id, now)
  }

  /** Renaming a merchant twice keeps only the second name. */
  lemma RenameTwice(t: MerchantTable, id: nat, first: string, second: string)
    requires UpdateMerchant(t, UpdateMerchantParams(id, first)).1.Ok?
    ensures var t' := UpdateMerchant(t, UpdateMerchantParams(id, first)).0;
      UpdateMerchant(t', UpdateMerchantParams(id, second)).0 == UpdateMerchant(t, UpdateMerchantParams(id, second)).0
  {
  }
}

=== FILE: permissions.dfy ===
/** Role- and identity-based route guards: the predicates of
    api/permission_type.go and the withRoles / check / wrap logic of
    api/permissions.go. The role cache (an LRU of 200 entries with a one
    minute TTL, loading through GetUserRoleByID) is seen as the partial map
    it currently holds. */
module Permissions {
  import opened Base
  import opened AuthPayload
  import opened UserRoles

  /** A permission named on a route. The Go type is a string, so values other
      than the three constants are possible and match no case. */
  datatype PermissionType = Admin | Member | MemberIsTarget | Other(name: string)

  /** The role cache as the map from user id to role it holds. */
  type RoleCache = map<string, UserRole>

  /** adminOnly: the role is exactly "admin". */
  function AdminOnly(role: UserRole): (r: bool)
    ensures r <==> role.role == RoleAdmin
  {
    match role.role
    case "admin" => true
    case _ => false
  }

  /** memberOnly: someone is logged in. */
  function MemberOnly(payload: AccessPayload): (r: bool)
    ensures r <==> payload.sub != ""
  {
    payload.sub != ""
  }

  /** memberIsTargetOnly: the route's user is the logged-in user. */
  function MemberIsTargetOnly(userID: string, payload: AccessPayload): (r: bool)
    ensures userID == "" || payload.sub == "" ==> !r
    ensures r <==> userID != "" && payload.sub != "" && userID == payload.sub
    ensures r ==> MemberOnly(payload)
  {
    if userID == "" || payload.sub == "" then false
    else if userID != payload.sub then false
    else true
  }

  datatype RoleError = UserIDNotProvided | LookupFailed(cause: DbError)

  /** The role cache as its loader fills it from the user_roles table: an id
      is held exactly when GetUserRoleByID finds a row for it, with the role
      that query returns. */
  ghost predicate Loads(cache: RoleCache, t: RoleTable) {
    forall id :: (id in cache <==> GetUserRoleByID(t, id).err.None?) &&
                 (id in cache ==> cache[id] == GetUserRoleByID(t, id).role)
  }

  /** getRole as written. The loader stores the `db.UserRole` value that
      GetUserRoleByID returns, and getRole asserts a `*db.UserRole`, so every
      hit panics (None); a miss gives the loader's error. */
  function GetRoleAsWritten(cache: RoleCache, id: string): (r: Option<Result<UserRole, RoleError>>)
    ensures r.None? <==> id in cache
    ensures r.Some? ==> r.value == Err(LookupFailed(ErrNoRows))
  {
    if id in cache then None else Some(Err(LookupFailed(ErrNoRows)))
  }

  /** The input that shows the failed assertion: any user holding a role
      row makes getRole panic. */
  lemma HeldRolePanics(cache: RoleCache, t: RoleTable, id: string, role: string)
    requires Loads(cache, t)
    requires Holds(t, id, role)
    ensures GetRoleAsWritten(cache, id).None?
  {
  }

  /** getRole as evidently intended, with the loader returning `&role` or
      the assertion reading a `db.UserRole` value: the cached role, or the
      loader's error. */
  function GetRole(cache: RoleCache, id: string): (r: Result<UserRole, RoleError>)
    ensures r.Ok? <==> id in cache
    ensures r.Ok? ==> r.value == cache[id]
    ensures r.Err? ==> r.error == LookupFailed(ErrNoRows)
  {
    if id in cache then Ok(cache[id]) else Err(LookupFailed(ErrNoRows))
  }

  /** Over a cache its loader filled, the corrected getRole answers exactly
      what GetUserRoleByID answers for the id. */
  lemma GetRoleIsLoaderResult(cache: RoleCache, t: RoleTable, id: string)
    requires Loads(cache, t)
    ensures GetRole(cache, id).Ok? <==> GetUserRoleByID(t, id).err.None?
    ensures GetRole(cache, id).Ok? ==> GetRole(cache, id).value == GetUserRoleByID(t, id).role
    ensures GetRole(cache, id).Err? ==> GetRole(cache, id).error == LookupFailed(GetUserRoleByID(t, id).err.value)
  {
  }

  /** The two versions agree wherever the version as written returns. */
  lemma GetRoleAgreesUnlessPanic(cache: RoleCache, id: string)
    ensures GetRoleAsWritten(cache, id).Some? ==> GetRoleAsWritten(cache, id).value == GetRole(cache, id)
  {
  }

  /** withRoles as written: any payload WITH a subject is refused before the
      roles are consulted; the empty subject reaches getRole as written,
      which panics (None) when the cache holds it. So it never allows. */
  function WithRoles(payload: AccessPayload, cache: RoleCache, roleFunc: UserRole -> bool): (r: Option<(bool, Option<RoleError>)>)
    ensures payload.sub != "" ==> r == Some((false, Some(UserIDNotProvided)))
    ensures r.None? <==> payload.sub == "" && "" in cache
    ensures payload.sub == "" && "" !in cache ==> r == Some((false, Some(LookupFailed(ErrNoRows))))
    ensures r.Some? ==> !r.value.0 && r.value.1.Some?
  {
    if payload.sub != "" then Some((false, Some(UserIDNotProvided)))
    else
      match GetRoleAsWritten(cache, payload.sub)
      case None => None
      case Some(Err(e)) => Some((false, Some(e)))
      case Some(Ok(role)) => Some((roleFunc(role), None))
  }

  /** The input that shows the inverted test: a logged-in admin is refused. */
  lemma WithRolesRefusesLoggedInAdmin(payload: AccessPayload, cache: RoleCache)
    requires payload.sub != "" && payload.sub in cache && cache[payload.sub].role == RoleAdmin
    ensures WithRoles(payload, cache, AdminOnly) == Some((false, Some(UserIDNotProvided)))
  {
  }

  /** withRoles as evidently intended: refuse the empty subject and look up
      the subject's own role through the corrected getRole. */
  function WithRolesCorrected(payload: AccessPayload, cache: RoleCache, roleFunc: UserRole -> bool): (r: (bool, Option<RoleError>))
    ensures payload.sub == "" ==> r == (false, Some(UserIDNotProvided))
    ensures r.1.Some? ==> !r.0
    ensures r.0 <==> payload.sub != "" && payload.sub in cache && roleFunc(cache[payload.sub])
  {
    if payload.sub == "" then (false, Some(UserIDNotProvided))
    else
      match GetRole(cache, payload.sub)
      case Err(e) => (false, Some(e))
      case Ok(role) => (roleFunc(role), None)
  }

  /** Whether one entry of the list lets the request through in `check`. */
  predicate EntryAllows(perm: PermissionType, payload: AccessPayload, routeUserID: string, cache: RoleCache) {
    match perm
    case Admin => WithRoles(payload, cache, AdminOnly).Some? && WithRoles(payload, cache, AdminOnly).value.0
    case Member => MemberOnly(payload)
    case MemberIsTarget => routeUserID != "" && MemberIsTargetOnly(routeUserID, payload)
    case Other(_) => false
  }

  /** Whether one entry makes `check` panic: an admin entry whose withRoles
      reaches a cached role. */
  predicate EntryPanics(perm: PermissionType, payload: AccessPayload, cache: RoleCache) {
    perm == Admin && WithRoles(payload, cache, AdminOnly).None?
  }

  /** Whether `check` moves on past one entry. */
  predicate Continues(perm: PermissionType, payload: AccessPayload, routeUserID: string, cache: RoleCache) {
    && !EntryAllows(perm, payload, routeUserID, cache)
    && !EntryPanics(perm, payload, cache)
    && !(perm == MemberIsTarget && routeUserID == "")
  }

  /** The one way `check` refuses: the route has no userID parameter and a
      memberIsTarget entry is reached. */
  predicate Refused(payload: AccessPayload, routeUserID: string, cache: RoleCache, perms: seq<PermissionType>) {
    routeUserID == "" &&
    exists k :: 0 <= k < |perms| && perms[k] == MemberIsTarget &&
      forall j :: 0 <= j < k ==> Continues(perms[j], payload, routeUserID, cache)
  }

  /** The way `check` panics: an admin entry whose lookup panics is reached. */
  predicate Panics(payload: AccessPayload, routeUserID: string, cache: RoleCache, perms: seq<PermissionType>) {
    exists k :: 0 <= k < |perms| && EntryPanics(perms[k], payload, cache) &&
      forall j :: 0 <= j < k ==> Continues(perms[j], payload, routeUserID, cache)
  }

  /** check as written: scan the entries in order, stop at the first that
      allows, stop with false at a memberIsTarget entry on a route without a
      userID, and otherwise fall through to true. None is a panic inside
      withRoles; withRoles as written never allows, so past it the scan
      moves on. */
  method Check(payload: AccessPayload, routeUserID: string, cache: RoleCache, perms: seq<PermissionType>) returns (r: Option<bool>)
    ensures r.None? <==> Panics(payload, routeUserID, cache, perms)
    ensures r == Some(false) <==> Refused(payload, routeUserID, cache, perms)
    ensures r == Some(false) ==> routeUserID == "" && MemberIsTarget in perms
    ensures r.None? ==> payload.sub == "" && Admin in perms
  {
    var i := 0;
    while i < |perms|
      invariant 0 <= i <= |perms|
      invariant forall j :: 0 <= j < i ==> Continues(perms[j], payload, routeUserID, cache)
    {
      match perms[i] {
        case Admin =>
          if WithRoles(payload, cache, AdminOnly).None? {
            return None;
          }
        case Member =>
          if MemberOnly(payload) {
            return Some(true);
          }
        case MemberIsTarget =>
          if routeUserID == "" {
            return Some(false);
          }
          if MemberIsTargetOnly(routeUserID, payload) {
            return Some(true);
          }
        case Other(_) =>
      }
      i := i + 1;
    }
    return Some(true);
  }

  /** An empty permission list lets every request through. */
  lemma EmptyListAllows(payload: AccessPayload, routeUserID: string, cache: RoleCache)
    ensures !Refused(payload, routeUserID, cache, [])
    ensures !Panics(payload, routeUserID, cache, [])
  {
  }

  /** The input that shows the fall-through: on a route with a userID, or
      with no memberIsTarget entry, nobody is ever refused, even a caller
      who is neither admin, member nor target; with a subject, nobody
      reaches the panic either, so everyone is let through. */
  lemma CheckAdmitsAnyone(payload: AccessPayload, routeUserID: string, cache: RoleCache, perms: seq<PermissionType>)
    requires routeUserID != "" || MemberIsTarget !in perms
    ensures !Refused(payload, routeUserID, cache, perms)
    ensures payload.sub != "" ==> !Panics(payload, routeUserID, cache, perms)
  {
  }

  /** What wrap does with the request. */
  datatype Guarded = Denied(status: int, message: string) | Proceed | Panicked

  /** wrap: answer 401 when check refuses, otherwise call the next handler;
      a panic in check ends the request there. */
  method Wrap(payload: AccessPayload, routeUserID: string, cache: RoleCache, perms: seq<PermissionType>) returns (r: Guarded)
    ensures r.Denied? <==> Refused(payload, routeUserID, cache, perms)
    ensures r.Denied? ==> r == Denied(StatusUnauthorized, "user unauthorized, permission denied")
    ensures r.Panicked? <==> Panics(payload, routeUserID, cache, perms)
  {
    var allowed := Check(payload, routeUserID, cache, perms);
    match allowed {
      case None =>
        return Panicked;
      case Some(ok) =>
        if !ok {
          return Denied(StatusUnauthorized, "user unauthorized, permission denied");
        }
        return Proceed;
    }
  }

  /** The per-entry test of the evidently intended check. */
  predicate IntendedAllows(perm: PermissionType, payload: AccessPayload, routeUserID: string, cache: RoleCache) {
    match perm
    case Admin => WithRolesCorrected(payload, cache, AdminOnly).0
    case Member => MemberOnly(payload)
    case MemberIsTarget => MemberIsTargetOnly(routeUserID, payload)
    case Other(_) => false
  }

  /** check as evidently intended: true at the first entry that allows,
      false at a memberIsTarget entry on a route without a userID, and false
      when the list runs out. */
  function CheckCorrected(payload: AccessPayload, routeUserID: string, cache: RoleCache, perms: seq<PermissionType>): (r: bool)
    ensures r <==> exists k :: 0 <= k < |perms| && IntendedAllows(perms[k], payload, routeUserID, cache) &&
                     forall j :: 0 <= j < k ==> !(perms[j] == MemberIsTarget && routeUserID == "")
  {
    if |perms| == 0 then false
    else
      var rest := CheckCorrected(payload, routeUserID, cache, perms[1..]);
      assert forall k :: 1 <= k < |perms| ==> perms[k] == perms[1..][k - 1];
      if perms[0] == MemberIsTarget && routeUserID == "" then false
      else if IntendedAllows(perms[0], payload, routeUserID, cache) then true
      else
        assert rest ==> exists k :: 0 <= k < |perms| && IntendedAllows(perms[k], payload, routeUserID, cache) &&
                         forall j :: 0 <= j < k ==> !(perms[j] == MemberIsTarget && routeUserID == "") by {
          if rest {
            var k :| 0 <= k < |perms[1..]| && IntendedAllows(perms[1..][k], payload, routeUserID, cache) &&
                     forall j :: 0 <= j < k ==> !(perms[1..][j] == MemberIsTarget && routeUserID == "");
            assert IntendedAllows(perms[k + 1], payload, routeUserID, cache);
          }
        }
        rest
  }

  /** The corrected check refuses a logged-in non-admin on an admin-only
      route, where the check as written lets them through. */
  lemma CorrectedCheckRefusesNonAdmin(payload: AccessPayload, routeUserID: string, cache: RoleCache)
    requires payload.sub in cache && cache[payload.sub].role != RoleAdmin
    ensures !CheckCorrected(payload, routeUserID, cache, [Admin])
    ensures !Refused(payload, routeUserID, cache, [Admin])
    ensures payload.sub != "" ==> !Panics(payload, routeUserID, cache, [Admin])
  {
  }

  /** The corrected check admits an admin on an admin-only route. */
  lemma CorrectedCheckAdmitsAdmin(payload: AccessPayload, routeUserID: string, cache: RoleCache)
    requires payload.sub != "" && payload.sub in cache && cache[payload.sub].role == RoleAdmin
    ensures CheckCorrected(payload, routeUserID, cache, [Admin])
  {
    assert IntendedAllows([Admin][0], payload, routeUserID, cache);
  }
}

=== FILE: refresh.dfy ===
/** refreshToken of api/refresh_token_api.go: swap a refresh token for a new
    token pair once the caller's access token is within 30 seconds of expiry,
    rotating the device's stored session. */
module Refresh {
  import opened Base
  import opened Jwt
  import opened AuthPayload
  import opened AuthMaker
  import opened Bearer
  import opened AuthMiddleware
  import opened RequestValidator
  import opened Sessions
  import opened Credentials

  /** How long before the access token's expiry a refresh is allowed. */
  const RefreshWindow := 30

  /** The decoded JSON body. */
  datatype Request = Request(refreshToken: AuthToken, deviceID: string)

  /** The JSON a reply carries. */
  datatype Body =
    | Message(text: string)                       // errorResponse(status, err)
    | Undecodable                                 // the body parser's own error
    | ValidationFailed(errs: seq<FieldError>)     // handed to validateResponse
    | Tokens(accessToken: AuthToken, refreshToken: AuthToken, accessTokenExpiresAt: int, user: User)

  datatype Reply = Reply(status: int, body: Body)

  /** The `required` checks on the body, in struct order. */
  function MissingFields(req: Request): (errs: seq<FieldError>)
    ensures |errs| == 0 <==> req.refreshToken != EmptyToken() && req.deviceID != ""
    ensures forall k :: 0 <= k < |errs| ==> errs[k].tag == "required"
  {
    (if req.refreshToken == EmptyToken() then [FieldError("refreshTokenRequest.RefreshToken", "required", "")] else [])
    + (if req.deviceID == "" then [FieldError("refreshTokenRequest.LoginSession.DeviceID", "required", "")] else [])
  }

  /** Whether the access token is close enough to expiry for a refresh. */
  predicate InWindow(auth: AccessPayload, now: int) {
    auth.exp - now <= RefreshWindow
  }

  /** The message of sql.ErrNoRows, which the user lookup passes through. */
  const NoRowsMessage := "sql: no rows in result set"

  /** The checks before the session lookup pass: the body decoded with both
      fields, the access token is in its last 30 seconds, and the refresh
      token verifies. */
  predicate Admitted(body: Option<Request>, auth: AccessPayload, m: Maker, now: int) {
    && body.Some?
    && |MissingFields(body.value)| == 0
    && InWindow(auth, now)
    && VerifyRefreshToken(m, body.value.refreshToken, now).Verified?
  }

  /** The subject of the verified refresh token. */
  function Subject(body: Option<Request>, auth: AccessPayload, m: Maker, now: int): string
    requires Admitted(body, auth, m, now)
  {
    VerifyRefreshToken(m, body.value.refreshToken, now).payload.sub
  }

  /** An admitted request whose session lookup by subject, device and token
      finds an unexpired row. */
  predicate SessionFound(body: Option<Request>, auth: AccessPayload, m: Maker, sessions: Sessions.Table, now: int) {
    && Admitted(body, auth, m, now)
    && GetSession(sessions, GetSessionsParams(Subject(body, auth, m, now), body.value.deviceID, body.value.refreshToken), now).1.None?
  }

  /** The handler at time `now`, for the access payload the authentication
      middleware stored, the session table and the users table (id to
      email; GetUserByID returns the row with that id). Returns the reply and
      the session table afterwards. */
  function RefreshToken(body: Option<Request>, auth: AccessPayload, m: Maker, sessions: Sessions.Table,
                        users: map<string, string>, cfg: Config, now: int, random: Option<Uuid>): (r: (Reply, Sessions.Table))
    ensures body.None? ==> r.0 == Reply(StatusBadRequest, Undecodable)
    ensures body.Some? && |MissingFields(body.value)| > 0 ==>
      r.0 == Reply(StatusBadRequest, ValidationFailed(MissingFields(body.value)))
    ensures body.Some? && |MissingFields(body.value)| == 0 && !InWindow(auth, now) ==>
      r.0 == Reply(StatusBadRequest, Message("access token not expired"))
    ensures r.0.status == StatusUnauthorized <==>
      body.Some? && |MissingFields(body.value)| == 0 && InWindow(auth, now) &&
      !VerifyRefreshToken(m, body.value.refreshToken, now).Verified?
    ensures body.Some? && |MissingFields(body.value)| == 0 && InWindow(auth, now) &&
            VerifyRefreshToken(m, body.value.refreshToken, now).Expired? ==>
      r.0 == Reply(StatusUnauthorized, Message("token is expired login required"))
    ensures body.Some? && |MissingFields(body.value)| == 0 && InWindow(auth, now) &&
            VerifyRefreshToken(m, body.value.refreshToken, now).Invalid? ==>
      r.0 == Reply(StatusUnauthorized, Message(ErrorMessage(ErrInvalidToken)))
    ensures r.0 == Reply(StatusNotFound, Message("session not found")) <==>
      Admitted(body, auth, m, now) && !SessionFound(body, auth, m, sessions, now)
    ensures r.0 == Reply(StatusNotFound, Message(NoRowsMessage)) <==>
      SessionFound(body, auth, m, sessions, now) && Subject(body, auth, m, now) !in users
    ensures r.0.status == StatusInternalServerError <==>
      SessionFound(body, auth, m, sessions, now) && Subject(body, auth, m, now) in users && cfg.refreshTokenDuration < 0
    ensures r.0.status == StatusOK <==>
      SessionFound(body, auth, m, sessions, now) && Subject(body, auth, m, now) in users && cfg.refreshTokenDuration >= 0
    ensures r.0.status != StatusOK ==> r.1 == sessions
    ensures r.0.status == StatusOK ==>
      var user := User(Subject(body, auth, m, now), users[Subject(body, auth, m, now)]);
      var issued := TokenCredentials(m, user, cfg, now, random);
      r.0.body == Tokens(issued.accessToken, issued.refreshToken, issued.accessExp, user)
    ensures r.0.status == StatusOK ==>
      r.1 == SaveRefreshToken(sessions, SaveRefreshTokenParams(Subject(body, auth, m, now), body.value.deviceID,
                                                               r.0.body.refreshToken, now + cfg.refreshTokenDuration), now)
  {
    match body
    case None => (Reply(StatusBadRequest, Undecodable), sessions)
    case Some(req) =>
      var errs := MissingFields(req);
      if |errs| > 0 then (Reply(StatusBadRequest, ValidationFailed(errs)), sessions)
      else if !InWindow(auth, now) then (Reply(StatusBadRequest, Message("access token not expired")), sessions)
      else
        match VerifyRefreshToken(m, req.refreshToken, now)
        case Expired(_) => (Reply(StatusUnauthorized, Message("token is expired login required")), sessions)
        case Invalid => (Reply(StatusUnauthorized, Message(ErrorMessage(ErrInvalidToken))), sessions)
        case Verified(payload) =>
          var (session, err) := GetSession(sessions, GetSessionsParams(payload.sub, req.deviceID, req.refreshToken), now);
          if err.Some? then (Reply(StatusNotFound, Message("session not found")), sessions)
          else if session.userID !in users then (Reply(StatusNotFound, Message(NoRowsMessage)), sessions)
          else
            var user := User(session.userID, users[session.userID]);
            var issued := TokenCredentials(m, user, cfg, now, random);
            if issued.err.Some? then
              (Reply(StatusInternalServerError, Message(ErrorMessage(issued.err.value.reason))), sessions)
            else
              var saved := SaveRefreshToken(sessions, SaveRefreshTokenParams(user.id, req.deviceID, issued.refreshToken, issued.refreshExp), now);
              (Reply(StatusOK, Tokens(issued.accessToken, issued.refreshToken, issued.accessExp, user)), saved)
  }

  /** Behind the authentication middleware, a request the handler lets past
      its window check holds an access token that is unexpired and at most 30
      seconds from expiry. */
  lemma WindowBehindMiddleware(header: string, m: Maker, decode: string -> AuthToken, now: int)
    requires AuthTokenMiddleWare(header, m, decode, now).Next?
    requires InWindow(AuthTokenMiddleWare(header, m, decode, now).payload, now)
    ensures 0 <= AuthTokenMiddleWare(header, m, decode, now).payload.exp - now <= RefreshWindow
  {
  }

  /** A successful refresh rotates the device's session: the new token finds
      it until its expiry, and the token presented no longer finds it unless
      it expires in the very second the new one does. */
  lemma RefreshRotatesSession(body: Option<Request>, auth: AccessPayload, m: Maker, sessions: Sessions.Table,
                              users: map<string, string>, cfg: Config, now: int, random: Option<Uuid>, later: int)
    requires RefreshToken(body, auth, m, sessions, users, cfg, now, random).0.status == StatusOK
    ensures var (reply, after) := RefreshToken(body, auth, m, sessions, users, cfg, now, random);
      var user := Subject(body, auth, m, now);
      var device := body.value.deviceID;
      (GetSession(after, GetSessionsParams(user, device, reply.body.refreshToken), later).1.None? <==>
         later < now + cfg.refreshTokenDuration) &&
      (VerifyRefreshToken(m, body.value.refreshToken, now).payload.exp != now + cfg.refreshTokenDuration ==>
         GetSession(after, GetSessionsParams(user, device, body.value.refreshToken), later).1 == Some(ErrNoRows))
  {
    var (reply, after) := RefreshToken(body, auth, m, sessions, users, cfg, now, random);
    RefreshIssuesNewToken(body, auth, m, sessions, users, cfg, now, random);
    SavedTokenFoundUntilExpiry(sessions, SaveRefreshTokenParams(Subject(body, auth, m, now), body.value.deviceID,
                                                                reply.body.refreshToken, now + cfg.refreshTokenDuration), now, later);
  }

  /** A refresh token cannot be spent twice: once a refresh has rotated the
      session away from a token that does not expire in the very second the
      new one does, presenting the old token again, at any later time and
      with any access token, is answered 404 "session not found" (or refused
      earlier). */
  lemma ReplayedTokenIsRefused(body: Option<Request>, auth: AccessPayload, m: Maker, sessions: Sessions.Table,
                               users: map<string, string>, cfg: Config, now: int, random: Option<Uuid>,
                               auth2: AccessPayload, later: int, random2: Option<Uuid>)
    requires RefreshToken(body, auth, m, sessions, users, cfg, now, random).0.status == StatusOK
    requires VerifyRefreshToken(m, body.value.refreshToken, now).payload.exp != now + cfg.refreshTokenDuration
    ensures var after := RefreshToken(body, auth, m, sessions, users, cfg, now, random).1;
      RefreshToken(body, auth2, m, after, users, cfg, later, random2).0.status != StatusOK
  {
    var (reply, after) := RefreshToken(body, auth, m, sessions, users, cfg, now, random);
    RefreshIssuesNewToken(body, auth, m, sessions, users, cfg, now, random);
    if Admitted(body, auth2, m, later) {
      assert Subject(body, auth2, m, later) == Subject(body, auth, m, now);
      RotationRetiresOldToken(sessions, SaveRefreshTokenParams(Subject(body, auth, m, now), body.value.deviceID,
                                                               reply.body.refreshToken, now + cfg.refreshTokenDuration),
                              body.value.refreshToken, now, later);
    }
  }

  /** Refresh tokens carry only the user and the expiry second, so a
      successful refresh hands back the very token presented exactly when
      that token is the one the handler would sign for the same subject in
      the same second; in particular, a presented token whose EXP is not
      `now` plus the refresh lifetime is always replaced by a different one. */
  lemma RefreshIssuesNewToken(body: Option<Request>, auth: AccessPayload, m: Maker, sessions: Sessions.Table,
                              users: map<string, string>, cfg: Config, now: int, random: Option<Uuid>)
    requires RefreshToken(body, auth, m, sessions, users, cfg, now, random).0.status == StatusOK
    ensures var reply := RefreshToken(body, auth, m, sessions, users, cfg, now, random).0;
      reply.body.refreshToken == body.value.refreshToken <==>
      body.value.refreshToken == CreateRefreshToken(m, Subject(body, auth, m, now), cfg.refreshTokenDuration, now).value
    ensures var reply := RefreshToken(body, auth, m, sessions, users, cfg, now, random).0;
      VerifyRefreshToken(m, body.value.refreshToken, now).payload.exp != now + cfg.refreshTokenDuration ==>
      reply.body.refreshToken != body.value.refreshToken
  {
    var reply := RefreshToken(body, auth, m, sessions, users, cfg, now, random).0;
    var S := Subject(body, auth, m, now);
    var issued := TokenCredentials(m, User(S, users[S]), cfg, now, random);
    assert issued.refreshToken == CreateRefreshToken(m, S, cfg.refreshTokenDuration, now).value;
    if reply.body.refreshToken == body.value.refreshToken {
      RefreshTokenRoundTrip(m, S, cfg.refreshTokenDuration, now, now);
    }
  }

  /** At the instant of its expiry (`now` equal to its EXP, in whole
      seconds) a refresh token still verifies, because expiry needs `now`
      after EXP, but its session no longer matches, because the lookup needs
      expires_at strictly after `now`: the handler answers 404. */
  lemma ExpirySecondSessionNotFound(req: Request, auth: AccessPayload, m: Maker, sessions: Sessions.Table,
                                    users: map<string, string>, cfg: Config, random: Option<Uuid>)
    requires |MissingFields(req)| == 0
    requires VerifyRefreshToken(m, req.refreshToken, auth.exp).Verified?
    requires VerifyRefreshToken(m, req.refreshToken, auth.exp).payload.exp == auth.exp
    requires var key := Sessions.Key(VerifyRefreshToken(m, req.refreshToken, auth.exp).payload.sub, req.deviceID);
      key in sessions && sessions[key].expiresAt == auth.exp
    ensures RefreshToken(Some(req), auth, m, sessions, users, cfg, auth.exp, random).0 ==
            Reply(StatusNotFound, Message("session not found"))
  {
  }
}

=== FILE: req_validator.dfy ===
/** Turning validator failures into the JSON error list returned with a 400. */
module RequestValidator {
  import Text

  const InvalidEmail := "invalid email"
  const RequiredField := "field is empty"

  /** One failed validation: the struct namespace of the field (for example
      "refreshTokenRequest.LoginSession.DeviceID"), the failed tag and the
      tag's parameter. */
  datatype FieldError = FieldError(failedField: string, tag: string, value: string)

  /** A fiber.Map with string values. */
  type Response = map<string, string>

  /** The three-key map for one failed field. */
  function ValidationErrorResponse(failedField: string, tag: string, value: string): (m: Response)
    ensures m.Keys == {"failed_field", "tag", "value"}
    ensures m["failed_field"] == failedField && m["tag"] == tag && m["value"] == value
  {
    map["failed_field" := failedField, "tag" := tag, "value" := value]
  }

  /** The value shown for a failure, chosen by tag. */
  function Message(e: FieldError): string {
    match e.tag
    case "required" => RequiredField
    case "email" => InvalidEmail
    case _ => e.value
  }

  /** One entry per input error, in input order. */
  method ValidateResponse(errs: seq<FieldError>) returns (resps: seq<Response>)
    ensures |resps| == |errs|
    ensures forall k :: 0 <= k < |errs| ==> resps[k].Keys == {"failed_field", "tag", "value"}
    ensures forall k :: 0 <= k < |errs| ==>
      resps[k]["failed_field"] == Text.LastSegment(errs[k].failedField, '.')
    ensures forall k :: 0 <= k < |errs| ==> resps[k]["tag"] == errs[k].tag
    ensures forall k :: 0 <= k < |errs| && errs[k].tag == "required" ==> resps[k]["value"] == RequiredField
    ensures forall k :: 0 <= k < |errs| && errs[k].tag == "email" ==> resps[k]["value"] == InvalidEmail
    ensures forall k :: 0 <= k < |errs| && errs[k].tag != "required" && errs[k].tag != "email" ==>
      resps[k]["value"] == errs[k].value
  {
    resps := [];
    var i := 0;
    while i < |errs|
      invariant 0 <= i <= |errs|
      invariant |resps| == i
      invariant forall k :: 0 <= k < i ==>
        resps[k] == ValidationErrorResponse(Text.LastSegment(errs[k].failedField, '.'), errs[k].tag, Message(errs[k]))
    {
      var err := errs[i];
      var f := Text.Split(err.failedField, '.');
      var failedFieldName := f[|f| - 1];
      var resp := ValidationErrorResponse(failedFieldName, err.tag, Message(err));
      resps := resps + [resp];
      i := i + 1;
    }
  }

  /** The reported field name is the part of the namespace after its last dot:
      it contains no dot and ends the namespace. */
  lemma FailedFieldIsLastName(namespace: string)
    ensures '.' !in Text.LastSegment(namespace, '.')
    ensures |Text.LastSegment(namespace, '.')| <= |namespace|
    ensures namespace[|namespace| - |Text.LastSegment(namespace, '.')|..] == Text.LastSegment(namespace, '.')
    ensures '.' !in namespace ==> Text.LastSegment(namespace, '.') == namespace
  {
    Text.LastSegmentIsFinalRun(namespace, '.');
  }
}

=== FILE: request_locals.dfy ===
/** The per-request locals of Fiber's context as the handlers read them. The
    authentication middleware stores the verified access payload under
    "authorization_payload" and nothing else (api/auth_middleware.go:55).
    The account, merchant, category and transaction handlers instead assert
    a user id under "userID", which nothing stores; the user-roles and
    refresh handlers read the payload. */
module RequestLocals {
  import opened Base
  import opened Bearer
  import opened Jwt
  import opened AuthPayload
  import opened AuthMaker
  import opened AuthMiddleware

  const UserIDKey := "userID"

  /** The two kinds of value a handler looks for in the locals. */
  datatype Local = Payload(payload: AccessPayload) | UserID(id: string)

  type Locals = map<string, Local>

  /** The locals a request carries into the handler: what the middleware
      stored when it let the request through, nothing when it answered. */
  function Stored(resp: Response<AccessPayload>): (l: Locals)
    ensures resp.Reject? ==> l == map[]
    ensures resp.Next? ==> l.Keys == {resp.key} && l[resp.key].Payload? && l[resp.key].payload == resp.payload
  {
    match resp
    case Reject(_, _) => map[]
    case Next(key, p) => map[key := Payload(p)]
  }

  /** `ctx.Locals("userID").(model.UserID)`: the user id, or None where the
      type assertion panics because the key is missing or holds something
      else. */
  function AssertUserID(l: Locals): (r: Option<string>)
    ensures r.Some? <==> UserIDKey in l && l[UserIDKey].UserID?
    ensures r.Some? ==> r.value == l[UserIDKey].id
  {
    if UserIDKey in l && l[UserIDKey].UserID? then Some(l[UserIDKey].id) else None
  }

  /** Every request the middleware lets through reaches the handler without a
      "userID" local, so the assertion panics on it. */
  lemma UserIDAssertionPanics(header: string, m: Maker, decode: string -> AuthToken, now: int)
    requires AuthTokenMiddleWare(header, m, decode, now).Next?
    ensures AssertUserID(Stored(AuthTokenMiddleWare(header, m, decode, now))).None?
  {
    assert AuthorizationPayloadKey != UserIDKey;
  }

  /** The caller as evidently intended, and as the user-roles handlers read
      it: the subject of the stored access payload; None where that
      assertion would panic. */
  function CallerID(l: Locals): (r: Option<string>)
    ensures r.Some? <==> AuthorizationPayloadKey in l && l[AuthorizationPayloadKey].Payload?
    ensures r.Some? ==> r.value == l[AuthorizationPayloadKey].payload.sub
  {
    if AuthorizationPayloadKey in l && l[AuthorizationPayloadKey].Payload? then
      Some(l[AuthorizationPayloadKey].payload.sub)
    else None
  }

  /** Behind the middleware the caller is always known: it is the subject of
      the access token the request presented. */
  lemma CallerIsTokenSubject(header: string, m: Maker, decode: string -> AuthToken, now: int)
    requires AuthTokenMiddleWare(header, m, decode, now).Next?
    ensures CallerID(Stored(AuthTokenMiddleWare(header, m, decode, now))) ==
            Some(VerifyAccessToken(m, decode(ParseAuthorization(header).value), now).payload.sub)
  {
  }
}

=== FILE: sessions.dfy ===
/** The `sessions` table of database/sqlc/session.go: one refresh token per
    (user, device), replaced on every login or refresh. */
module Sessions {
  import opened Base
  import opened Jwt
  import opened AuthMaker

  /** The table's conflict target: at most one row per user and device. */
  datatype Key = Key(userID: string, deviceID: string)

  datatype Row = Row(refreshToken: AuthToken, expiresAt: int, createdAt: int)

  type Table = map<Key, Row>

  datatype SaveRefreshTokenParams = SaveRefreshTokenParams(userID: string, deviceID: string, refreshToken: AuthToken, expiresAt: int)

  datatype Session = Session(userID: string, deviceID: string, refreshToken: AuthToken, expiresAt: int, createdAt: int)

  /** The zero model.Session returned with an error. */
  function ZeroSession(): Session {
    Session("", "", EmptyToken(), 0, ZeroTime)
  }

  /** SaveRefreshToken at database time `now`: insert, or on a (user, device)
      conflict overwrite the token, its expiry and the creation time. */
  function SaveRefreshToken(t: Table, args: SaveRefreshTokenParams, now: int): (r: Table)
    ensures r.Keys == t.Keys + {Key(args.userID, args.deviceID)}
    ensures r[Key(args.userID, args.deviceID)] == Row(args.refreshToken, args.expiresAt, now)
    ensures forall k :: k in t && k != Key(args.userID, args.deviceID) ==> r[k] == t[k]
  {
    t[Key(args.userID, args.deviceID) := Row(args.refreshToken, args.expiresAt, now)]
  }

  datatype GetSessionsParams = GetSessionsParams(userID: string, deviceID: string, refreshToken: AuthToken)

  /** GetSession at database time `now`: the row of (user, device) if it holds
      exactly this token and has not reached its expiry, else ErrNoRows. */
  function GetSession(t: Table, args: GetSessionsParams, now: int): (r: (Session, Option<DbError>))
    ensures r.1.None? <==> Key(args.userID, args.deviceID) in t &&
                           t[Key(args.userID, args.deviceID)].refreshToken == args.refreshToken &&
                           t[Key(args.userID, args.deviceID)].expiresAt > now
    ensures r.1.Some? ==> r == (ZeroSession(), Some(ErrNoRows))
    ensures r.1.None? ==> r.0.userID == args.userID && r.0.deviceID == args.deviceID &&
                          r.0.refreshToken == args.refreshToken && r.0.expiresAt > now
    ensures r.1.None? ==> r.0.createdAt == t[Key(args.userID, args.deviceID)].createdAt
  {
    var key := Key(args.userID, args.deviceID);
    if key in t && t[key].refreshToken == args.refreshToken && t[key].expiresAt > now then
      var row := t[key];
      (Session(args.userID, args.deviceID, row.refreshToken, row.expiresAt, row.createdAt), None)
    else
      (ZeroSession(), Some(ErrNoRows))
  }

  /** A saved token is found again, by the same user and device, until its
      expiry. */
  lemma SavedTokenFoundUntilExpiry(t: Table, args: SaveRefreshTokenParams, now: int, later: int)
    ensures var found := GetSession(SaveRefreshToken(t, args, now), GetSessionsParams(args.userID, args.deviceID, args.refreshToken), later);
      found.1.None? <==> later < args.expiresAt
  {
  }

  /** Saving a new token for a device retires the token it replaces. */
  lemma RotationRetiresOldToken(t: Table, args: SaveRefreshTokenParams, retired: AuthToken, now: int, later: int)
    requires retired != args.refreshToken
    ensures GetSession(SaveRefreshToken(t, args, now), GetSessionsParams(args.userID, args.deviceID, retired), later).1 == Some(ErrNoRows)
  {
  }

  /** A save touches no other device's or user's session. */
  lemma SaveLeavesOtherSessions(t: Table, args: SaveRefreshTokenParams, q: GetSessionsParams, now: int, later: int)
    requires Key(q.userID, q.deviceID) != Key(args.userID, args.deviceID)
    ensures GetSession(SaveRefreshToken(t, args, now), q, later) == GetSession(t, q, later)
  {
  }

  /** Saving the same row twice at the same time is the same as saving it
      once. */
  lemma SaveIdempotent(t: Table, args: SaveRefreshTokenParams, now: int)
    ensures SaveRefreshToken(SaveRefreshToken(t, args, now), args, now) == SaveRefreshToken(t, args, now)
  {
  }
}

=== FILE: soft_delete.dfy ===
/** The soft-delete table shared by the transactions, accounts, merchant and
    categories repositories (database/sqlc/transaction.go, accounts.go,
    merchant.go, category.go). A row is live while its `deleted_at` holds the
    zero time; "delete" stamps the time instead of removing the row, and every
    query but insert looks at live rows only.

    Row ids are allocated in increasing order, so row `i` of the sequence has
    id `i` and `ORDER BY id` is the order of the sequence. */
module SoftDelete {
  import opened Base

  datatype Row<R> = Row(data: R, createdAt: int, deletedAt: int)

  predicate Live<R>(row: Row<R>) {
    row.deletedAt == ZeroTime
  }

  type Table<R> = seq<Row<R>>

  /** A scanned row together with its id. */
  datatype Record<R> = Record(id: nat, row: Row<R>)

  /** `INSERT … RETURNING *` at database time `now`: a new live row under a
      fresh id, greater than every id in use. */
  function Insert<R>(t: Table<R>, data: R, now: int): (r: (Table<R>, Record<R>))
    ensures |r.0| == |t| + 1 && r.0[..|t|] == t
    ensures r.1.id == |t| && r.0[r.1.id] == r.1.row
    ensures r.1.row.data == data && r.1.row.createdAt == now && Live(r.1.row)
  {
    var row := Row(data, now, ZeroTime);
    (t + [row], Record(|t|, row))
  }

  /** `SELECT * … WHERE id = $1 AND deleted_at = zero LIMIT 1`. */
  function Get<R>(t: Table<R>, id: nat): (r: Result<Record<R>, DbError>)
    ensures r.Ok? <==> id < |t| && Live(t[id])
    ensures r.Ok? ==> r.value == Record(id, t[id])
    ensures r.Err? ==> r.error == ErrNoRows
  {
    if id < |t| && Live(t[id]) then Ok(Record(id, t[id])) else Err(ErrNoRows)
  }

  /** `UPDATE … SET … WHERE id = $1 AND deleted_at = zero RETURNING *`:
      `change` rewrites the columns the statement sets. */
  function Update<R>(t: Table<R>, id: nat, change: R -> R): (r: (Table<R>, Result<Record<R>, DbError>))
    ensures r.1.Ok? <==> id < |t| && Live(t[id])
    ensures r.1.Err? ==> r.0 == t && r.1.error == ErrNoRows
    ensures r.1.Ok? ==> |r.0| == |t| && r.1.value.id == id && r.0[id] == r.1.value.row
    ensures r.1.Ok? ==> r.0[id] == Row(change(t[id].data), t[id].createdAt, ZeroTime)
    ensures r.1.Ok? ==> forall j :: 0 <= j < |t| && j != id ==> r.0[j] == t[j]
  {
    if id < |t| && Live(t[id]) then
      var row := t[id].(data := change(t[id].data));
      (t[id := row], Ok(Record(id, row)))
    else (t, Err(ErrNoRows))
  }

  /** `UPDATE … SET deleted_at = now() WHERE id = $1 AND deleted_at = zero
      RETURNING deleted_at`: the deletion time, or ErrNoRows when the row is
      missing or already deleted. */
  function Delete<R>(t: Table<R>, id: nat, now: int): (r: (Table<R>, Result<int, DbError>))
    ensures r.1.Ok? <==> id < |t| && Live(t[id])
    ensures r.1.Err? ==> r.0 == t && r.1.error == ErrNoRows
    ensures r.1.Ok? ==> r.1.value == now && |r.0| == |t|
    ensures r.1.Ok? ==> r.0[id] == Row(t[id].data, t[id].createdAt, now)
    ensures r.1.Ok? ==> forall j :: 0 <= j < |t| && j != id ==> r.0[j] == t[j]
  {
    if id < |t| && Live(t[id]) then
      (t[id := t[id].(deletedAt := now)], Ok(now))
    else (t, Err(ErrNoRows))
  }

  /** The ids of a record list strictly increase. */
  predicate Ascending<R>(s: seq<Record<R>>) {
    forall a, b :: 0 <= a < b < |s| ==> s[a].id < s[b].id
  }

  /** The live rows with id at least `from` whose columns satisfy `keep`, in
      id order. */
  function SelectFrom<R>(t: Table<R>, keep: R -> bool, from: nat): (r: seq<Record<R>>)
    ensures forall k :: 0 <= k < |r| ==> from <= r[k].id < |t| && r[k].row == t[r[k].id]
    ensures forall k :: 0 <= k < |r| ==> Live(r[k].row) && keep(r[k].row.data)
    ensures forall id :: from <= id < |t| && Live(t[id]) && keep(t[id].data) ==> Record(id, t[id]) in r
    ensures Ascending(r)
    ensures from <= |t| ==> |r| <= |t| - from
    decreases |t| - from
  {
    if from >= |t| then []
    else
      var rest := SelectFrom(t, keep, from + 1);
      if Live(t[from]) && keep(t[from].data) then [Record(from, t[from])] + rest else rest
  }

  /** `SELECT * … WHERE <keep> AND deleted_at = zero ORDER BY id`. */
  function Select<R>(t: Table<R>, keep: R -> bool): (r: seq<Record<R>>)
    ensures forall k :: 0 <= k < |r| ==> r[k].id < |t| && r[k].row == t[r[k].id]
    ensures forall k :: 0 <= k < |r| ==> Live(r[k].row) && keep(r[k].row.data)
    ensures forall id :: 0 <= id < |t| && Live(t[id]) && keep(t[id].data) ==> Record(id, t[id]) in r
    ensures Ascending(r)
    ensures |r| <= |t|
  {
    SelectFrom(t, keep, 0)
  }

  /** `… LIMIT $limit OFFSET $offset` with Postgres's checks on the two
      bounds, the offset first. */
  function List<R>(t: Table<R>, keep: R -> bool, limit: int, offset: int): (r: Result<seq<Record<R>>, DbError>)
    ensures offset < 0 ==> r == Err(NegativeOffset)
    ensures 0 <= offset && limit < 0 ==> r == Err(NegativeLimit)
    ensures r.Ok? <==> 0 <= offset && 0 <= limit
    ensures r.Ok? ==> |r.value| <= limit && Ascending(r.value)
    ensures r.Ok? && |r.value| > 0 ==> offset + |r.value| <= |Select(t, keep)|
    ensures r.Ok? && offset + limit <= |Select(t, keep)| ==> |r.value| == limit
    ensures r.Ok? ==> forall k :: 0 <= k < |r.value| ==> r.value[k] == Select(t, keep)[offset + k]
    ensures r.Ok? ==> IsPage(r.value, Select(t, keep), limit, offset)
  {
    if offset < 0 then Err(NegativeOffset)
    else if limit < 0 then Err(NegativeLimit)
    else Ok(Window(Select(t, keep), limit, offset))
  }

  /** Consecutive pages of a list fit together: `n` rows at `offset`
      followed by `m` rows at `offset + n` are the `n + m` rows at `offset`. */
  lemma ListPagesConcatenate<R>(t: Table<R>, keep: R -> bool, n: nat, m: nat, offset: nat)
    ensures List(t, keep, n, offset).value + List(t, keep, m, offset + n).value == List(t, keep, n + m, offset).value
  {
    PagesConcatenate(Select(t, keep), n, m, offset);
  }

  /** A first page at least as long as the table lists every live row that
      satisfies `keep`, in id order. */
  lemma ListWholeTable<R>(t: Table<R>, keep: R -> bool, limit: nat)
    requires limit >= |t|
    ensures List(t, keep, limit, 0) == Ok(Select(t, keep))
  {
    WholeFirstPage(Select(t, keep), limit);
  }

  /** A new row is found by its id. */
  lemma InsertThenGet<R>(t: Table<R>, data: R, now: int)
    ensures var (t', rec) := Insert(t, data, now);
      Get(t', rec.id) == Ok(rec)
  {
  }

  /** Delete is one-shot: once it has stamped a row, the row is hidden from
      get and a second delete finds nothing, as long as the stamp is a real
      time rather than the zero sentinel. */
  lemma DeleteIsOneShot<R>(t: Table<R>, id: nat, now: int, later: int)
    requires Delete(t, id, now).1.Ok?
    requires now != ZeroTime
    ensures Get(Delete(t, id, now).0, id) == Err(ErrNoRows)
    ensures Delete(Delete(t, id, now).0, id, later) == (Delete(t, id, now).0, Err(ErrNoRows))
  {
  }

  /** A deleted row leaves every list, and every other row stays listed. */
  lemma DeleteHidesFromSelect<R>(t: Table<R>, id: nat, now: int, keep: R -> bool)
    requires Delete(t, id, now).1.Ok?
    requires now != ZeroTime
    ensures forall k :: 0 <= k < |Select(Delete(t, id, now).0, keep)| ==> Select(Delete(t, id, now).0, keep)[k].id != id
    ensures forall k :: 0 <= k < |Select(t, keep)| && Select(t, keep)[k].id != id ==>
      Select(t, keep)[k] in Select(Delete(t, id, now).0, keep)
  {
    var t' := Delete(t, id, now).0;
    forall k | 0 <= k < |Select(t, keep)| && Select(t, keep)[k].id != id
      ensures Select(t, keep)[k] in Select(t', keep)
    {
      var j := Select(t, keep)[k].id;
      assert t'[j] == t[j];
    }
  }

  /** Update and delete touch no other row: get on any other id is unchanged. */
  lemma WritesLeaveOtherRows<R>(t: Table<R>, id: nat, other: nat, change: R -> R, now: int)
    requires other != id
    ensures Get(Update(t, id, change).0, other) == Get(t, other)
    ensures Get(Delete(t, id, now).0, other) == Get(t, other)
  {
  }
}

=== FILE: text.dfy ===
/** The pieces of Go's `strings` package the core relies on: `strings.Fields`,
    `strings.ToLower` (as far as it matters for comparing with ASCII words),
    `strings.Split` with its last element, and `len` of a string, which counts
    UTF-8 bytes. */
module Text {

  /** unicode.IsSpace: the Latin-1 spaces plus the Unicode White_Space runes. */
  predicate IsSpace(c: char) {
    var n := c as int;
    || n == 0x09 || n == 0x0A || n == 0x0B || n == 0x0C || n == 0x0D || n == 0x20
    || n == 0x85 || n == 0xA0 || n == 0x1680
    || (0x2000 <= n <= 0x200A)
    || n == 0x2028 || n == 0x2029 || n == 0x202F || n == 0x205F || n == 0x3000
  }

  /** A field as strings.Fields returns it: non-empty, no white space. */
  predicate IsWord(w: string) {
    |w| > 0 && forall i :: 0 <= i < |w| ==> !IsSpace(w[i])
  }

  /** Length of the leading run of non-space characters. */
  function WordLength(s: string): (n: nat)
    ensures n <= |s|
    ensures forall i :: 0 <= i < n ==> !IsSpace(s[i])
    ensures n < |s| ==> IsSpace(s[n])
  {
    if |s| == 0 || IsSpace(s[0]) then 0 else 1 + WordLength(s[1..])
  }

  /** strings.Fields: the maximal runs of non-space characters, in order. */
  function Fields(s: string): (r: seq<string>)
    ensures forall k :: 0 <= k < |r| ==> IsWord(r[k])
    decreases |s|
  {
    if |s| == 0 then []
    else if IsSpace(s[0]) then Fields(s[1..])
    else
      var n := WordLength(s);
      [s[..n]] + Fields(s[n..])
  }

  /** The characters of `s` that are not white space, in order. */
  function Squeeze(s: string): (r: string)
    ensures |r| <= |s|
    ensures forall i :: 0 <= i < |r| ==> !IsSpace(r[i])
  {
    if |s| == 0 then ""
    else if IsSpace(s[0]) then Squeeze(s[1..])
    else [s[0]] + Squeeze(s[1..])
  }

  /** Strings laid end to end. */
  function Concat(ws: seq<string>): string {
    if |ws| == 0 then "" else ws[0] + Concat(ws[1..])
  }

  lemma {:induction false} SqueezeAppend(a: string, b: string)
    ensures Squeeze(a + b) == Squeeze(a) + Squeeze(b)
    decreases |a|
  {
    if |a| == 0 {
      assert a + b == b;
    } else {
      assert (a + b)[0] == a[0];
      assert (a + b)[1..] == a[1..] + b;
      SqueezeAppend(a[1..], b);
    }
  }

  lemma {:induction false} SqueezeWord(w: string)
    requires forall i :: 0 <= i < |w| ==> !IsSpace(w[i])
    ensures Squeeze(w) == w
    decreases |w|
  {
    if |w| > 0 {
      SqueezeWord(w[1..]);
      assert w == [w[0]] + w[1..];
    }
  }

  /** Fields drops the white space and nothing else: laid end to end, the
      fields are the non-space characters of `s` in their order. */
  lemma {:induction false} FieldsKeepEveryNonSpace(s: string)
    ensures Concat(Fields(s)) == Squeeze(s)
    decreases |s|
  {
    if |s| > 0 {
      if IsSpace(s[0]) {
        FieldsKeepEveryNonSpace(s[1..]);
      } else {
        var n := WordLength(s);
        assert s == s[..n] + s[n..];
        SqueezeAppend(s[..n], s[n..]);
        SqueezeWord(s[..n]);
        FieldsKeepEveryNonSpace(s[n..]);
        assert ([s[..n]] + Fields(s[n..]))[1..] == Fields(s[n..]);
      }
    }
  }

  /** Words joined by single spaces: the inverse of Fields on words. */
  function JoinWords(ws: seq<string>): string {
    if |ws| == 0 then ""
    else if |ws| == 1 then ws[0]
    else ws[0] + " " + JoinWords(ws[1..])
  }

  lemma {:induction false} WordLengthOfWord(w: string, rest: string)
    requires IsWord(w)
    requires |rest| == 0 || IsSpace(rest[0])
    ensures WordLength(w + rest) == |w|
    decreases |w|
  {
    if |w| == 1 {
      assert (w + rest)[1..] == rest;
    } else {
      assert (w + rest)[1..] == w[1..] + rest;
      WordLengthOfWord(w[1..], rest);
    }
  }

  /** Fields recovers the words of a single-space join. */
  lemma {:induction false} FieldsOfJoin(ws: seq<string>)
    requires forall k :: 0 <= k < |ws| ==> IsWord(ws[k])
    ensures Fields(JoinWords(ws)) == ws
    decreases |ws|
  {
    if |ws| == 1 {
      var w := ws[0];
      WordLengthOfWord(w, "");
      assert w + "" == w;
      assert w[..|w|] == w;
      assert w[|w|..] == "";
    } else if |ws| > 1 {
      var w := ws[0];
      var tail := JoinWords(ws[1..]);
      var rest := " " + tail;
      var s := JoinWords(ws);
      assert s == w + rest;
      WordLengthOfWord(w, rest);
      assert s[..|w|] == w;
      assert s[|w|..] == rest;
      assert rest[1..] == tail;
      FieldsOfJoin(ws[1..]);
      assert ws == [w] + ws[1..];
    }
  }

  /** A string has no fields exactly when it is all white space (or empty). */
  lemma {:induction false} FieldsEmptyIffBlank(s: string)
    ensures Fields(s) == [] <==> forall i :: 0 <= i < |s| ==> IsSpace(s[i])
    decreases |s|
  {
    if |s| > 0 && IsSpace(s[0]) {
      FieldsEmptyIffBlank(s[1..]);
      if forall i :: 0 <= i < |s| ==> IsSpace(s[i]) {
        assert forall i :: 0 <= i < |s[1..]| ==> IsSpace(s[1..][i]) by {
          forall i | 0 <= i < |s[1..]| ensures IsSpace(s[1..][i]) {
            assert s[1..][i] == s[i + 1];
          }
        }
      } else {
        var j :| 0 <= j < |s| && !IsSpace(s[j]);
        assert s[1..][j - 1] == s[j];
      }
    }
  }

  /** A run of white space, possibly empty. */
  predicate IsBlank(b: string) {
    forall i :: 0 <= i < |b| ==> IsSpace(b[i])
  }

  /** `bs[0] + ws[0] + bs[1] + … + ws[n-1] + bs[n]`: words with blanks
      around and between them. */
  function Interleave(bs: seq<string>, ws: seq<string>): string
    requires |bs| == |ws| + 1
    decreases |ws|
  {
    if |ws| == 0 then bs[0] else bs[0] + ws[0] + Interleave(bs[1..], ws[1..])
  }

  lemma {:induction false} FieldsSkipBlank(b: string, x: string)
    requires IsBlank(b)
    ensures Fields(b + x) == Fields(x)
    decreases |b|
  {
    if |b| > 0 {
      assert (b + x)[1..] == b[1..] + x;
      FieldsSkipBlank(b[1..], x);
    } else {
      assert b + x == x;
    }
  }

  /** Fields splits at every run of white space and nowhere else: with any
      blanks around the words, and non-empty blanks between them, it returns
      exactly the words. Every string has this shape, so this pins Fields
      down. */
  lemma {:induction false} FieldsOfBlankJoin(bs: seq<string>, ws: seq<string>)
    requires |bs| == |ws| + 1
    requires forall k :: 0 <= k < |bs| ==> IsBlank(bs[k])
    requires forall k :: 0 <= k < |ws| ==> IsWord(ws[k])
    requires forall k :: 0 < k < |ws| ==> |bs[k]| > 0
    ensures Fields(Interleave(bs, ws)) == ws
    decreases |ws|
  {
    if |ws| == 0 {
      FieldsSkipBlank(bs[0], "");
      assert bs[0] + "" == bs[0];
    } else {
      var w := ws[0];
      var rest := Interleave(bs[1..], ws[1..]);
      assert Interleave(bs, ws) == bs[0] + (w + rest);
      FieldsSkipBlank(bs[0], w + rest);
      if |ws| > 1 {
        assert rest == bs[1] + (ws[1] + Interleave(bs[2..], ws[2..]));
        assert rest[0] == bs[1][0];
      }
      WordLengthOfWord(w, rest);
      assert (w + rest)[..|w|] == w;
      assert (w + rest)[|w|..] == rest;
      FieldsOfBlankJoin(bs[1..], ws[1..]);
      assert ws == [w] + ws[1..];
    }
  }

  /** ASCII case folding: the only part of strings.ToLower that can change the
      outcome of a comparison with a lower-case ASCII word. */
  function LowerChar(c: char): char {
    if 'A' <= c <= 'Z' then (c as int + 32) as char else c
  }

  function Lower(s: string): (r: string)
    ensures |r| == |s|
    ensures forall i :: 0 <= i < |s| ==> r[i] == LowerChar(s[i])
  {
    seq(|s|, i requires 0 <= i < |s| => LowerChar(s[i]))
  }

  function UpperChar(c: char): char {
    if 'a' <= c <= 'z' then (c as int - 32) as char else c
  }

  /** `s` is `word` up to the case of each letter. */
  predicate EqualFold(s: string, word: string) {
    |s| == |word| && forall i :: 0 <= i < |s| ==> s[i] == word[i] || s[i] == UpperChar(word[i])
  }

  predicate IsLowerAscii(word: string) {
    forall i :: 0 <= i < |word| ==> 'a' <= word[i] <= 'z'
  }

  /** Lower-casing and comparing with a lower-case word is a case-insensitive
      comparison. */
  lemma LowerEqualsIffEqualFold(s: string, word: string)
    requires IsLowerAscii(word)
    ensures Lower(s) == word <==> EqualFold(s, word)
  {
    if Lower(s) == word {
      forall i | 0 <= i < |s| ensures s[i] == word[i] || s[i] == UpperChar(word[i]) {
        assert LowerChar(s[i]) == word[i];
      }
    }
    if EqualFold(s, word) {
      assert forall i :: 0 <= i < |s| ==> Lower(s)[i] == word[i];
    }
  }

  /** Bytes of the UTF-8 encoding of one code point. */
  function Utf8Width(c: char): nat {
    if c as int < 0x80 then 1
    else if c as int < 0x800 then 2
    else if c as int < 0x1_0000 then 3
    else 4
  }

  /** Go's `len` on a string: the length of its UTF-8 encoding. */
  function Utf8Length(s: string): (n: nat)
    ensures |s| <= n <= 4 * |s|
    ensures n == 0 <==> |s| == 0
  {
    if |s| == 0 then 0 else Utf8Width(s[0]) + Utf8Length(s[1..])
  }

  /** Position of the first `c` in `s`. */
  function IndexOf(s: string, c: char): (i: nat)
    requires c in s
    ensures i < |s| && s[i] == c
    ensures c !in s[..i]
  {
    if s[0] == c then 0
    else
      assert c in s[1..] by { var j :| 0 <= j < |s| && s[j] == c; assert s[1..][j - 1] == c; }
      var j := IndexOf(s[1..], c);
      assert s[..j + 1] == [s[0]] + s[1..][..j];
      j + 1
  }

  /** strings.Split with a one-character separator. */
  function Split(s: string, sep: char): (parts: seq<string>)
    ensures |parts| >= 1
    ensures forall k :: 0 <= k < |parts| ==> sep !in parts[k]
    decreases |s|
  {
    if sep !in s then [s]
    else
      var i := IndexOf(s, sep);
      [s[..i]] + Split(s[i + 1..], sep)
  }

  /** strings.Join with a one-character separator. */
  function Join(parts: seq<string>, sep: char): string {
    if |parts| == 0 then ""
    else if |parts| == 1 then parts[0]
    else parts[0] + [sep] + Join(parts[1..], sep)
  }

  /** Joining the pieces of a split gives back the original string. */
  lemma {:induction false} JoinSplit(s: string, sep: char)
    ensures Join(Split(s, sep), sep) == s
    decreases |s|
  {
    if sep in s {
      var i := IndexOf(s, sep);
      var tail := Split(s[i + 1..], sep);
      JoinSplit(s[i + 1..], sep);
      assert ([s[..i]] + tail)[1..] == tail;
      assert s == s[..i] + [sep] + s[i + 1..];
    }
  }

  /** The last element of strings.Split(s, sep). */
  function LastSegment(s: string, sep: char): string {
    var parts := Split(s, sep);
    parts[|parts| - 1]
  }

  /** The last segment is the longest suffix of `s` free of `sep`: it is the
      whole string when there is no separator, and otherwise follows the last
      separator. */
  lemma {:induction false} LastSegmentIsFinalRun(s: string, sep: char)
    ensures sep !in LastSegment(s, sep)
    ensures |LastSegment(s, sep)| <= |s|
    ensures s[|s| - |LastSegment(s, sep)|..] == LastSegment(s, sep)
    ensures |LastSegment(s, sep)| < |s| ==> s[|s| - |LastSegment(s, sep)| - 1] == sep
    ensures sep !in s ==> LastSegment(s, sep) == s
    decreases |s|
  {
    if sep in s {
      var i := IndexOf(s, sep);
      var rest := s[i + 1..];
      var tail := Split(rest, sep);
      assert Split(s, sep) == [s[..i]] + tail;
      assert LastSegment(s, sep) == LastSegment(rest, sep);
      LastSegmentIsFinalRun(rest, sep);
      var r := LastSegment(rest, sep);
      assert s[|s| - |r|..] == rest[|rest| - |r|..];
      if |r| == |rest| {
        assert s[|s| - |r| - 1] == s[i];
      } else {
        assert s[|s| - |r| - 1] == rest[|rest| - |r| - 1];
      }
    }
  }
}

=== FILE: token_maker.dfy ===
/** JWTTokenMaker of the older `token` package: one symmetric key. */
module TokenMaker {
  import opened Base
  import opened Jwt
  import opened TokenPayload
  import Text

  const MinimumSymmetricKeySize: nat := 32

  datatype Maker = Maker(secretKey: string)

  datatype KeySizeError = InvalidKeySize(required: nat)

  type PayloadToken = Token<Payload>

  /** NewJWTTokenMaker: the key must be at least 32 bytes long. */
  function NewJWTTokenMaker(secretKey: string): (r: Result<Maker, KeySizeError>)
    ensures r.Ok? <==> Text.Utf8Length(secretKey) >= MinimumSymmetricKeySize
    ensures r.Ok? ==> r.value.secretKey == secretKey
    ensures r.Err? ==> r.error == InvalidKeySize(32)
    ensures |secretKey| >= 32 ==> r.Ok?
  {
    if Text.Utf8Length(secretKey) < MinimumSymmetricKeySize
    then Err(InvalidKeySize(MinimumSymmetricKeySize))
    else Ok(Maker(secretKey))
  }

  /** CreateToken: a new payload signed HS256 with the key. */
  function CreateToken(m: Maker, userID: string, duration: int, now: int, random: Option<Uuid>): (r: Result<PayloadToken, UuidError>)
    ensures r.Ok? <==> random.Some?
    ensures r.Ok? ==> r.value == SignHS256(Payload(random.value, userID, now, now + duration), m.secretKey)
  {
    match NewPayload(userID, duration, now, random)
    case Err(e) => Err(e)
    case Ok(p) => Ok(SignHS256(p, m.secretKey))
  }

  function Identity(p: Payload): Payload { p }

  /** VerifyToken as written: the claims destination is the struct value
      `Payload{}`, so JSON decoding of the claims fails, and the closing
      `Claims.(*Payload)` assertion could not succeed either. Every token is
      reported invalid, fresh ones included. */
  function VerifyTokenAsWritten(m: Maker, tok: PayloadToken, now: int): (r: Result<Payload, TokenError>)
    ensures r == Err(ErrInvalidToken)
  {
    var parsed := ParseWithClaims(tok, ByValue, Identity, p => Valid(p, now), m.secretKey);
    match parsed
    case ClaimsInvalid(_, e) => if e == ErrExpiredToken then Err(ErrExpiredToken) else Err(ErrInvalidToken)
    case Failed => Err(ErrInvalidToken)
    case Accepted(_) => Err(ErrInvalidToken)   // the `*Payload` type assertion fails on a value
  }

  /** The input that shows it: a token this maker has just created, checked in
      the same second, is rejected. */
  lemma VerifyTokenAsWrittenRejectsFreshToken(m: Maker, userID: string, duration: int, now: int, id: Uuid)
    requires duration >= 0
    ensures CreateToken(m, userID, duration, now, Some(id)).Ok?
    ensures VerifyTokenAsWritten(m, CreateToken(m, userID, duration, now, Some(id)).value, now) == Err(ErrInvalidToken)
  {
  }

  /** VerifyToken with the claims passed as `&Payload{}`: expiry yields
      ErrExpiredToken with no claims, every other failure ErrInvalidToken. */
  function VerifyToken(m: Maker, tok: PayloadToken, now: int): (r: Result<Payload, TokenError>)
    ensures r.Ok? <==> tok.Signed? && IsHmac(tok.alg) && tok.key == m.secretKey && now <= tok.claims.expiresAt
    ensures r.Ok? ==> r.value == tok.claims
    ensures r == Err(ErrExpiredToken) <==>
      tok.Signed? && IsHmac(tok.alg) && tok.key == m.secretKey && now > tok.claims.expiresAt
  {
    match ParseWithClaims(tok, ByPointer, Identity, p => Valid(p, now), m.secretKey)
    case Accepted(p) => Ok(p)
    case ClaimsInvalid(_, e) => if e == ErrExpiredToken then Err(ErrExpiredToken) else Err(ErrInvalidToken)
    case Failed => Err(ErrInvalidToken)
  }

  /** Create then verify: a token verifies to its own payload until it
      expires, and is then reported expired. */
  lemma TokenRoundTrip(m: Maker, userID: string, duration: int, now: int, id: Uuid, t: int)
    ensures var tok := CreateToken(m, userID, duration, now, Some(id)).value;
      VerifyToken(m, tok, t) == (if t <= now + duration then Ok(Payload(id, userID, now, now + duration))
                                 else Err(ErrExpiredToken))
  {
  }

  /** A token signed under another key, or with a non-HMAC method, is
      invalid. */
  lemma ForeignTokensInvalid(m: Maker, p: Payload, alg: Alg, key: string, now: int)
    requires !IsHmac(alg) || key != m.secretKey
    ensures VerifyToken(m, Signed(alg, p, key), now) == Err(ErrInvalidToken)
  {
  }
}

=== FILE: token_middleware.dfy ===
/** authTokenMiddleWare of api/token_middleware.go, over any `token.Maker`
    whose VerifyToken is `verify`. */
module TokenMiddleware {
  import opened Base
  import opened Bearer
  import opened Jwt
  import opened TokenPayload
  import TokenMaker

  function TokenAuthMiddleWare(header: string, verify: string -> Result<Payload, TokenError>): (r: Response<Payload>)
    ensures |header| == 0 ==> r == Reject(StatusUnauthorized, "authorization header not provided")
    ensures r.Reject? ==> r.status == StatusUnauthorized
    ensures ParseAuthorization(header).Err? ==>
      r == Reject(StatusUnauthorized, HeaderMessage(ParseAuthorization(header).error))
    ensures r.Next? <==> ParseAuthorization(header).Ok? && verify(ParseAuthorization(header).value).Ok?
    ensures r.Next? ==> r.key == AuthorizationPayloadKey && r.payload == verify(ParseAuthorization(header).value).value
    ensures ParseAuthorization(header).Ok? && verify(ParseAuthorization(header).value).Err? ==>
      r == Reject(StatusUnauthorized, ErrorMessage(verify(ParseAuthorization(header).value).error))
  {
    match ParseAuthorization(header)
    case Err(e) => Reject(StatusUnauthorized, HeaderMessage(e))
    case Ok(text) =>
      match verify(text)
      case Err(e) => Reject(StatusUnauthorized, ErrorMessage(e))
      case Ok(p) => Next(AuthorizationPayloadKey, p)
  }

  /** Behind the verifier as written, no request gets through. */
  lemma AsWrittenVerifierRejectsEveryRequest(header: string, m: TokenMaker.Maker, decode: string -> TokenMaker.PayloadToken, now: int)
    ensures TokenAuthMiddleWare(header, s => TokenMaker.VerifyTokenAsWritten(m, decode(s), now)).Reject?
  {
  }

  /** Behind the corrected verifier, a fresh token in a bearer header gets
      through with its own payload. */
  lemma CorrectedVerifierAdmitsFreshToken(header: string, m: TokenMaker.Maker, decode: string -> TokenMaker.PayloadToken,
                                          userID: string, duration: int, now: int, id: Uuid)
    requires ParseAuthorization(header).Ok?
    requires duration >= 0
    requires decode(ParseAuthorization(header).value) == TokenMaker.CreateToken(m, userID, duration, now, Some(id)).value
    ensures TokenAuthMiddleWare(header, s => TokenMaker.VerifyToken(m, decode(s), now))
         == Next(AuthorizationPayloadKey, Payload(id, userID, now, now + duration))
  {
  }
}

=== FILE: token_payload.dfy ===
/** The payload of the older `token` package. */
module TokenPayload {
  import opened Base

  datatype TokenError = ErrInvalidToken | ErrExpiredToken

  function ErrorMessage(e: TokenError): string {
    match e
    case ErrInvalidToken => "JWTToken is invalid"
    case ErrExpiredToken => "JWTToken has expired"
  }

  /** ID, UserID, IssuedAt and ExpiresAt, with times in Unix seconds. */
  datatype Payload = Payload(id: Uuid, userID: string, issuedAt: int, expiresAt: int)

  datatype UuidError = UuidError

  /** NewPayload at time `now`; `random` is None when uuid.NewRandom fails. */
  function NewPayload(userID: string, duration: int, now: int, random: Option<Uuid>): (r: Result<Payload, UuidError>)
    ensures r.Ok? <==> random.Some?
    ensures r.Ok? ==> r.value.id == random.value && r.value.userID == userID
    ensures r.Ok? ==> r.value.issuedAt == now && r.value.expiresAt == now + duration
  {
    match random
    case None => Err(UuidError)
    case Some(id) => Ok(Payload(id, userID, now, now + duration))
  }

  /** Payload.Valid: ErrExpiredToken once `now` is after ExpiresAt. */
  function Valid(p: Payload, now: int): (r: Option<TokenError>)
    ensures r.Some? ==> r.value == ErrExpiredToken
    ensures r.Some? <==> p.expiresAt < now
  {
    if now > p.expiresAt then Some(ErrExpiredToken) else None
  }

  /** A new payload is valid until its expiry and expired after it. */
  lemma FreshPayloadLifetime(userID: string, duration: int, now: int, id: Uuid, t: int)
    ensures var p := NewPayload(userID, duration, now, Some(id)).value;
      Valid(p, t).None? <==> t <= now + duration
  {
  }
}

=== FILE: transactions.dfy ===
/** The transactions repository of database/sqlc/transaction.go over the
    soft-delete table, and the pieces of api/transactions.go that decide what
    reaches it: the create parameters, the page offset and the status codes. */
module Transactions {
  import opened Base
  import opened SoftDelete
  import opened Jwt
  import opened AuthPayload
  import opened AuthMaker
  import opened AuthMiddleware
  import opened RequestLocals

  /** A transaction's columns; `date` is Unix seconds. */
  datatype Transaction = Transaction(userID: string, accountID: nat, categoryID: nat, name: string,
                                     transactionType: string, amount: int, notes: string, date: int)

  type TransactionTable = SoftDelete.Table<Transaction>

  /** CreateTransactionParams: every column of a new transaction. */
  datatype CreateTransactionParams = CreateTransactionParams(userID: string, accountID: nat, categoryID: nat, name: string,
                                                             transactionType: string, amount: int, notes: string, date: int)

  function CreateTransaction(t: TransactionTable, args: CreateTransactionParams, now: int): (r: (TransactionTable, Record<Transaction>))
    ensures r.1.row.data == Transaction(args.userID, args.accountID, args.categoryID, args.name,
                                        args.transactionType, args.amount, args.notes, args.date)
    ensures Get(r.0, r.1.id) == Ok(r.1)
    ensures forall id :: 0 <= id < |t| ==> Get(r.0, id) == Get(t, id)
  {
    var data := Transaction(args.userID, args.accountID, args.categoryID, args.name,
                            args.transactionType, args.amount, args.notes, args.date);
    InsertThenGet(t, data, now);
    var (t', rec) := Insert(t, data, now);
    assert forall id :: 0 <= id < |t| ==> t'[id] == t[id];
    (t', rec)
  }

  function GetTransactionByID(t: TransactionTable, id: nat): (r: Result<Record<Transaction>, DbError>)
    ensures r.Ok? <==> id < |t| && Live(t[id])
    ensures r.Ok? ==> r.value.id == id && r.value.row == t[id]
    ensures r.Err? ==> r.error == ErrNoRows
  {
    Get(t, id)
  }

  /** The date filter shared by the three lists: strictly between the bounds. */
  predicate InPeriod(tx: Transaction, from: int, to: int) {
    from < tx.date < to
  }

  /** The parameters of the three list queries, whose owner column differs. */
  datatype Owner = ByUser(userID: string) | ByAccount(accountID: nat) | ByCategory(categoryID: nat)

  datatype ListTxParams = ListTxParams(owner: Owner, limit: int, offset: int, from: int, to: int)

  predicate Owns(owner: Owner, tx: Transaction) {
    match owner
    case ByUser(u) => tx.userID == u
    case ByAccount(a) => tx.accountID == a
    case ByCategory(c) => tx.categoryID == c
  }

  /** The filter of the three list queries: the owner's transactions dated
      inside the period. */
  function Matches(owner: Owner, from: int, to: int): Transaction -> bool {
    (tx: Transaction) => Owns(owner, tx) && InPeriod(tx, from, to)
  }

  /** ListTransactionsByUserID / ByAccountID / ByCategoryID: the live
      transactions of the owner dated strictly inside the period, in id
      order, one page of them. */
  function ListTransactions(t: TransactionTable, args: ListTxParams): (r: Result<seq<Record<Transaction>>, DbError>)
    ensures r.Ok? <==> args.offset >= 0 && args.limit >= 0
    ensures args.offset < 0 ==> r == Err(NegativeOffset)
    ensures r.Ok? ==> |r.value| <= args.limit && Ascending(r.value)
    ensures r.Ok? ==> forall k :: 0 <= k < |r.value| ==>
      r.value[k].id < |t| && r.value[k].row == t[r.value[k].id] && Live(r.value[k].row) &&
      Owns(args.owner, r.value[k].row.data) && InPeriod(r.value[k].row.data, args.from, args.to)
    ensures args.offset == 0 && args.limit >= |t| ==> r.Ok?
    ensures args.offset == 0 && args.limit >= |t| ==>
      forall id :: 0 <= id < |t| && Live(t[id]) && Owns(args.owner, t[id].data) && InPeriod(t[id].data, args.from, args.to) ==>
        Record(id, t[id]) in r.value
    ensures r.Ok? ==> IsPage(r.value, Select(t, Matches(args.owner, args.from, args.to)), args.limit, args.offset)
  {
    var keep := Matches(args.owner, args.from, args.to);
    var r := List(t, keep, args.limit, args.offset);
    assert r.Ok? ==> forall k :: 0 <= k < |r.value| ==> r.value[k] in Select(t, keep);
    assert args.offset == 0 && args.limit >= |t| ==> r.Ok? && r.value == Select(t, keep);
    r
  }

  /** Consecutive pages of a transaction list fit together: `n` rows at
      `offset` followed by `m` rows at `offset + n` are the `n + m` rows at
      `offset`. */
  lemma TransactionPagesConcatenate(t: TransactionTable, owner: Owner, from: int, to: int, n: nat, m: nat, offset: nat)
    ensures ListTransactions(t, ListTxParams(owner, n, offset, from, to)).value +
            ListTransactions(t, ListTxParams(owner, m, offset + n, from, to)).value ==
            ListTransactions(t, ListTxParams(owner, n + m, offset, from, to)).value
  {
    var keep := Matches(owner, from, to);
    assert ListTransactions(t, ListTxParams(owner, n, offset, from, to)) == List(t, keep, n, offset);
    assert ListTransactions(t, ListTxParams(owner, m, offset + n, from, to)) == List(t, keep, m, offset + n);
    assert ListTransactions(t, ListTxParams(owner, n + m, offset, from, to)) == List(t, keep, n + m, offset);
    ListPagesConcatenate(t, keep, n, m, offset);
  }

  /** DeleteTransaction at database time `now`. */
  function DeleteTransaction(t: TransactionTable, id: nat, now: int): (r: (TransactionTable, Result<int, DbError>))
    ensures r.1.Ok? <==> id < |t| && Live(t[id])
    ensures r.1.Ok? ==> r.1.value == now && |r.0| == |t|
    ensures r.1.Ok? && now != ZeroTime ==> GetTransactionByID(r.0, id).Err?
    ensures r.1.Err? ==> r.0 == t && r.1.error == ErrNoRows
  {
    Delete(t, id, now)
  }

  /** After a delete the transaction is absent from get and from every list. */
  lemma DeletedTransactionDisappears(t: TransactionTable, id: nat, now: int, args: ListTxParams)
    requires DeleteTransaction(t, id, now).1.Ok?
    requires now != ZeroTime
    ensures GetTransactionByID(DeleteTransaction(t, id, now).0, id) == Err(ErrNoRows)
    ensures DeleteTransaction(DeleteTransaction(t, id, now).0, id, now).1 == Err(ErrNoRows)
    ensures var l := ListTransactions(DeleteTransaction(t, id, now).0, args);
      l.Ok? ==> forall k :: 0 <= k < |l.value| ==> l.value[k].id != id
  {
  }

  // ---- api/transactions.go -------------------------------------------------

  /** transactionRequest: the body of a create. */
  datatype TransactionRequest = TransactionRequest(accountID: nat, categoryID: nat, name: string,
                                                   transactionType: string, amount: int, notes: string, date: int)

  /** The parameters createTransaction builds for the logged-in user: every
      field of the request except Notes, which it never copies. */
  function CreateParamsFromRequest(userID: string, req: TransactionRequest): (args: CreateTransactionParams)
    ensures args.userID == userID && args.accountID == req.accountID && args.categoryID == req.categoryID
    ensures args.name == req.name && args.transactionType == req.transactionType
    ensures args.amount == req.amount && args.date == req.date
    ensures args.notes == ""
  {
    CreateTransactionParams(userID, req.accountID, req.categoryID, req.name, req.transactionType, req.amount, "", req.date)
  }

  /** createTransaction as written, up to the parameters it builds: it first
      asserts the "userID" local, and None is the panic when that fails. */
  function CreateParamsAsWritten(l: Locals, req: TransactionRequest): (r: Option<CreateTransactionParams>)
    ensures r.None? <==> AssertUserID(l).None?
    ensures r.Some? ==> r.value.userID == AssertUserID(l).value && r.value.notes == "" && r.value.amount == req.amount
  {
    match AssertUserID(l)
    case None => None
    case Some(userID) => Some(CreateParamsFromRequest(userID, req))
  }

  /** No request that passes the middleware gets as far as the create
      parameters. */
  lemma CreateTransactionPanicsBehindMiddleware(header: string, m: Maker, decode: string -> AuthToken, now: int,
                                                req: TransactionRequest)
    requires AuthTokenMiddleWare(header, m, decode, now).Next?
    ensures CreateParamsAsWritten(Stored(AuthTokenMiddleWare(header, m, decode, now)), req).None?
  {
    UserIDAssertionPanics(header, m, decode, now);
  }

  /** The create parameters with the caller taken from the stored access
      payload. */
  function CreateParamsCorrected(l: Locals, req: TransactionRequest): (r: Option<CreateTransactionParams>)
    ensures r.None? <==> CallerID(l).None?
    ensures r.Some? ==> r.value.userID == CallerID(l).value && r.value.notes == "" && r.value.amount == req.amount
  {
    match CallerID(l)
    case None => None
    case Some(userID) => Some(CreateParamsFromRequest(userID, req))
  }

  /** Behind the middleware the corrected handler creates the transaction for
      the token's subject, with the request's columns and empty notes. */
  lemma CorrectedCreateOwnedByCaller(t: TransactionTable, header: string, m: Maker, decode: string -> AuthToken,
                                     now: int, req: TransactionRequest)
    requires AuthTokenMiddleWare(header, m, decode, now).Next?
    ensures var args := CreateParamsCorrected(Stored(AuthTokenMiddleWare(header, m, decode, now)), req);
      args.Some? &&
      CreateTransaction(t, args.value, now).1.row.data ==
        Transaction(AuthTokenMiddleWare(header, m, decode, now).payload.sub, req.accountID, req.categoryID, req.name,
                    req.transactionType, req.amount, "", req.date)
  {
    CallerIsTokenSubject(header, m, decode, now);
  }

  /** A transaction created through the handler has empty notes, whatever the
      request carried. */
  lemma CreatedNotesAreEmpty(t: TransactionTable, userID: string, req: TransactionRequest, now: int)
    ensures CreateTransaction(t, CreateParamsFromRequest(userID, req), now).1.row.data.notes == ""
  {
  }

  const Int32Min := -0x8000_0000
  const Int32Max := 0x7FFF_FFFF

  predicate IsInt32(x: int) {
    Int32Min <= x <= Int32Max
  }

  /** Go's int32 arithmetic: the result modulo 2^32, read as signed. */
  function WrapInt32(x: int): (r: int)
    ensures IsInt32(r)
    ensures (r - x) % 0x1_0000_0000 == 0
    ensures IsInt32(x) ==> r == x
  {
    (x - Int32Min) % 0x1_0000_0000 + Int32Min
  }

  /** The bounds validated on listTransactionsRequest: page_id >= 1 and
      5 <= page_size <= 10, both parsed as int32. */
  predicate ValidPage(pageID: int, pageSize: int) {
    IsInt32(pageID) && IsInt32(pageSize) && pageID >= 1 && 5 <= pageSize <= 10
  }

  /** Everything listTransactionsRequest validates: the page bounds, and the
      `required` tags on From and To, which refuse Go's zero time. */
  predicate ValidListRequest(pageID: int, pageSize: int, from: int, to: int) {
    ValidPage(pageID, pageSize) && from != ZeroTime && to != ZeroTime
  }

  /** The handlers' `(req.PageID - 1) * req.PageSize`, computed in int32. */
  function PageOffsetAsWritten(pageID: int, pageSize: int): (r: int)
    requires ValidPage(pageID, pageSize)
    ensures IsInt32(r)
    ensures (pageID - 1) * pageSize <= Int32Max ==> r == (pageID - 1) * pageSize
  {
    WrapInt32((pageID - 1) * pageSize)
  }

  /** The input that shows the wrap: the last valid page id with ten rows a
      page gives the offset -20, which the database refuses. */
  lemma LastPageOffsetWraps()
    ensures ValidPage(Int32Max, 10)
    ensures PageOffsetAsWritten(Int32Max, 10) == -20
  {
  }

  /** The offset as evidently intended: computed without wrap-around (in a
      64-bit integer, where it cannot overflow for int32 inputs). */
  function PageOffset(pageID: int, pageSize: int): (r: nat)
    requires ValidPage(pageID, pageSize)
    ensures r == (pageID - 1) * pageSize
    ensures r % pageSize == 0 && r / pageSize == pageID - 1
  {
    (pageID - 1) * pageSize
  }

  /** With the intended offset a valid page never makes the query fail, and
      page n + 1 starts where page n ends. */
  lemma PagesAreContiguous(pageID: int, pageSize: int)
    requires ValidPage(pageID, pageSize) && ValidPage(pageID + 1, pageSize)
    ensures PageOffset(pageID + 1, pageSize) == PageOffset(pageID, pageSize) + pageSize
  {
  }

  /** The reply of a list handler. */
  datatype ListReply = ListReply(status: int, rows: seq<Record<Transaction>>)

  /** A list handler once it has an offset: 500 when the query fails, 404 for
      an empty page, 200 with the rows otherwise. */
  function ListPage(t: TransactionTable, owner: Owner, pageSize: int, offset: int, from: int, to: int): (r: ListReply)
    ensures r.status == StatusInternalServerError <==> offset < 0 || pageSize < 0
    ensures r.status == StatusOK <==> (ListTransactions(t, ListTxParams(owner, pageSize, offset, from, to)).Ok? &&
                                       |ListTransactions(t, ListTxParams(owner, pageSize, offset, from, to)).value| > 0)
    ensures r.status == StatusOK ==> 0 < |r.rows| <= pageSize
    ensures r.status == StatusOK ==> r.rows == ListTransactions(t, ListTxParams(owner, pageSize, offset, from, to)).value
    ensures r.status == StatusNotFound <==> (ListTransactions(t, ListTxParams(owner, pageSize, offset, from, to)).Ok? &&
                                             |ListTransactions(t, ListTxParams(owner, pageSize, offset, from, to)).value| == 0)
    ensures r.status != StatusOK ==> r.rows == []
  {
    match ListTransactions(t, ListTxParams(owner, pageSize, offset, from, to))
    case Err(_) => ListReply(StatusInternalServerError, [])
    case Ok(rows) => if |rows| == 0 then ListReply(StatusNotFound, []) else ListReply(StatusOK, rows)
  }

  /** listTransactionsByUserID / ByAccountID / ByCategoryID from the query
      parser on, as written: 422 when page_id or page_size does not parse as
      an int32, 400 on an invalid request, then the page at the int32
      offset. */
  function ListTransactionsHandler(t: TransactionTable, owner: Owner, pageID: int, pageSize: int, from: int, to: int): (r: ListReply)
    ensures !IsInt32(pageID) || !IsInt32(pageSize) ==> r == ListReply(StatusUnprocessableEntity, [])
    ensures IsInt32(pageID) && IsInt32(pageSize) && !ValidListRequest(pageID, pageSize, from, to) ==>
      r == ListReply(StatusBadRequest, [])
    ensures ValidListRequest(pageID, pageSize, from, to) && (pageID - 1) * pageSize <= Int32Max ==>
      r == ListPage(t, owner, pageSize, (pageID - 1) * pageSize, from, to)
    ensures r.status == StatusInternalServerError ==>
      ValidListRequest(pageID, pageSize, from, to) && (pageID - 1) * pageSize > Int32Max
  {
    if !IsInt32(pageID) || !IsInt32(pageSize) then ListReply(StatusUnprocessableEntity, [])
    else if !ValidListRequest(pageID, pageSize, from, to) then ListReply(StatusBadRequest, [])
    else ListPage(t, owner, pageSize, PageOffsetAsWritten(pageID, pageSize), from, to)
  }

  /** As written, the last valid page answers 500 instead of the (empty)
      page: the wrapped offset is negative. */
  lemma LastPageFailsAsWritten(t: TransactionTable, owner: Owner, from: int, to: int)
    requires from != ZeroTime && to != ZeroTime
    ensures ListTransactionsHandler(t, owner, Int32Max, 10, from, to).status == StatusInternalServerError
  {
    LastPageOffsetWraps();
  }

  /** The list handlers with the intended offset. */
  function ListTransactionsHandlerCorrected(t: TransactionTable, owner: Owner, pageID: int, pageSize: int, from: int, to: int): (r: ListReply)
    ensures !IsInt32(pageID) || !IsInt32(pageSize) ==> r == ListReply(StatusUnprocessableEntity, [])
    ensures IsInt32(pageID) && IsInt32(pageSize) && !ValidListRequest(pageID, pageSize, from, to) ==>
      r == ListReply(StatusBadRequest, [])
    ensures r.status != StatusInternalServerError
    ensures ValidListRequest(pageID, pageSize, from, to) ==> r == ListPage(t, owner, pageSize, (pageID - 1) * pageSize, from, to)
  {
    if !IsInt32(pageID) || !IsInt32(pageSize) then ListReply(StatusUnprocessableEntity, [])
    else if !ValidListRequest(pageID, pageSize, from, to) then ListReply(StatusBadRequest, [])
    else ListPage(t, owner, pageSize, PageOffset(pageID, pageSize), from, to)
  }

  /** The two agree on every page whose offset fits in an int32. */
  lemma HandlersAgreeWithoutOverflow(t: TransactionTable, owner: Owner, pageID: int, pageSize: int, from: int, to: int)
    requires (pageID - 1) * pageSize <= Int32Max
    ensures ListTransactionsHandler(t, owner, pageID, pageSize, from, to) ==
            ListTransactionsHandlerCorrected(t, owner, pageID, pageSize, from, to)
  {
  }

  /** deleteTransaction after reading the route parameter: 400 without an id,
      404 when nothing live was deleted, 200 otherwise. */
  function DeleteTransactionHandler(t: TransactionTable, id: Option<nat>, now: int): (r: (int, TransactionTable))
    ensures id.None? ==> r == (StatusBadRequest, t)
    ensures id.Some? ==> (r.0 == StatusNotFound <==> !(id.value < |t| && Live(t[id.value])))
    ensures id.Some? && id.value < |t| && Live(t[id.value]) ==> r.0 == StatusOK
    ensures r.0 != StatusOK ==> r.1 == t
    ensures r.0 == StatusOK ==> id.Some? && r.1 == DeleteTransaction(t, id.value, now).0
  {
    match id
    case None => (StatusBadRequest, t)
    case Some(i) =>
      var (t', res) := DeleteTransaction(t, i, now);
      if res.Err? then (StatusNotFound, t) else (StatusOK, t')
  }
}

=== FILE: user_roles.dfy ===
/** The user_roles table: (user_id, role, created_at) rows with no surrogate
    key, kept in storage order. A unique constraint on (user_id, role) is
    assumed, as the grant handler's 403 mapping presupposes. */
module UserRoles {
  import opened Base

  const RoleAdmin := "admin"

  datatype UserRole = UserRole(userID: string, role: string, createdAt: int)

  /** The zero UserRole a failed query returns. */
  const ZeroUserRole := UserRole("", "", ZeroTime)

  type RoleTable = seq<UserRole>

  datatype RoleParams = RoleParams(userID: string, role: string)

  /** A row and the error of a `:one` query, as Go returns them. */
  datatype RoleReply = RoleReply(role: UserRole, err: Option<DbError>)

  predicate Holds(t: RoleTable, userID: string, role: string) {
    exists i :: 0 <= i < |t| && t[i].userID == userID && t[i].role == role
  }

  /** GrantRole: insert the pair, or fail on the unique constraint. */
  function GrantRole(t: RoleTable, args: RoleParams, now: int): (r: (RoleTable, RoleReply))
    ensures r.1.err.Some? <==> Holds(t, args.userID, args.role)
    ensures r.1.err.Some? ==> r.1 == RoleReply(ZeroUserRole, Some(UniqueViolation)) && r.0 == t
    ensures r.1.err.None? ==> r.1.role == UserRole(args.userID, args.role, now) && r.0 == t + [r.1.role]
    ensures Holds(r.0, args.userID, args.role)
  {
    if Holds(t, args.userID, args.role) then (t, RoleReply(ZeroUserRole, Some(UniqueViolation)))
    else
      var row := UserRole(args.userID, args.role, now);
      assert (t + [row])[|t|] == row;
      (t + [row], RoleReply(row, None))
  }

  /** The grant handler's answer: 403 on a duplicate pair, 500 on any other
      database error, 201 otherwise. */
  function GrantStatus(reply: RoleReply): (r: (int, string))
    ensures reply.err == Some(UniqueViolation) ==> r == (StatusForbidden, "role already allocated to user")
    ensures reply.err.None? ==> r.0 == StatusCreated
    ensures reply.err.Some? && reply.err != Some(UniqueViolation) ==> r.0 == StatusInternalServerError
  {
    match reply.err
    case None => (StatusCreated, "")
    case Some(UniqueViolation) => (StatusForbidden, "role already allocated to user")
    case Some(_) => (StatusInternalServerError, "")
  }

  /** Granting a pair a second time is refused with 403. */
  lemma GrantTwiceForbidden(t: RoleTable, args: RoleParams, now: int, later: int)
    ensures var t1 := GrantRole(t, args, now).0;
      GrantStatus(GrantRole(t1, args, later).1) == (StatusForbidden, "role already allocated to user")
  {
  }

  /** RevokeRole: delete exactly the rows with that user and that role; it
      reports no error even when nothing matched. */
  function RevokeRole(t: RoleTable, args: RoleParams): (r: (RoleTable, Option<DbError>))
    ensures r.1.None?
    ensures forall i :: 0 <= i < |r.0| ==> r.0[i] in t && !(r.0[i].userID == args.userID && r.0[i].role == args.role)
    ensures forall i :: 0 <= i < |t| && !(t[i].userID == args.userID && t[i].role == args.role) ==> t[i] in r.0
    ensures !Holds(r.0, args.userID, args.role)
    ensures !Holds(t, args.userID, args.role) ==> r.0 == t
  {
    var kept := Filter(t, (x: UserRole) => !(x.userID == args.userID && x.role == args.role));
    (kept, None)
  }

  /** Revoke undoes a grant: once revoked, the same pair can be granted again
      without hitting the unique constraint. */
  lemma RevokeThenGrantSucceeds(t: RoleTable, args: RoleParams, now: int)
    ensures var t1 := RevokeRole(t, args).0;
      GrantStatus(GrantRole(t1, args, now).1).0 == StatusCreated
  {
  }

  /** Position of the first row of `userID`, if any. */
  function FirstOf(t: RoleTable, userID: string): (i: nat)
    ensures i <= |t|
    ensures forall j :: 0 <= j < i ==> t[j].userID != userID
    ensures i < |t| ==> t[i].userID == userID
  {
    if |t| == 0 then 0
    else if t[0].userID == userID then 0
    else 1 + FirstOf(t[1..], userID)
  }

  /** GetUserRoleByID: the first role row of the user (`LIMIT 1`, storage
      order). Only role and created_at are scanned, so UserID stays empty. */
  function GetUserRoleByID(t: RoleTable, userID: string): (r: RoleReply)
    ensures r.err.None? <==> exists i :: 0 <= i < |t| && t[i].userID == userID
    ensures r.err.Some? ==> r == RoleReply(ZeroUserRole, Some(ErrNoRows))
    ensures r.err.None? ==> r.role.userID == ""
    ensures r.err.None? ==>
      exists i :: (0 <= i < |t| && t[i].userID == userID && r.role == UserRole("", t[i].role, t[i].createdAt) &&
                   forall j :: 0 <= j < i ==> t[j].userID != userID)
  {
    var i := FirstOf(t, userID);
    if i == |t| then RoleReply(ZeroUserRole, Some(ErrNoRows))
    else RoleReply(UserRole("", t[i].role, t[i].createdAt), None)
  }

  datatype ListUserRoleParams = ListUserRoleParams(userID: string, limit: int, offset: int)

  /** The filter of the list query: the row belongs to the user. */
  function OfUser(userID: string): UserRole -> bool {
    (x: UserRole) => x.userID == userID
  }

  /** ListUsersByRole: the rows of one user (despite the name it filters on
      user_id), `LIMIT`/`OFFSET` with no ORDER BY, so storage order here.
      `scanFails` says which rows fail to scan; any failure on the page yields
      nil and the error. */
  function ListUsersByRole(t: RoleTable, args: ListUserRoleParams, scanFails: UserRole -> bool): (r: Result<seq<UserRole>, DbError>)
    ensures args.offset < 0 ==> r == Err(NegativeOffset)
    ensures args.offset >= 0 && args.limit < 0 ==> r == Err(NegativeLimit)
    ensures r == Err(ScanError) <==>
      args.offset >= 0 && args.limit >= 0 &&
      exists k :: 0 <= k < |Window(Filter(t, OfUser(args.userID)), args.limit, args.offset)| &&
                  scanFails(Window(Filter(t, OfUser(args.userID)), args.limit, args.offset)[k])
    ensures r.Ok? ==>
      args.offset >= 0 && args.limit >= 0 && IsPage(r.value, Filter(t, OfUser(args.userID)), args.limit, args.offset)
    ensures r.Ok? ==> forall k :: 0 <= k < |r.value| ==> r.value[k] in t && r.value[k].userID == args.userID
    ensures r.Ok? ==> forall k :: 0 <= k < |r.value| ==> !scanFails(r.value[k])
  {
    if args.offset < 0 then Err(NegativeOffset)
    else if args.limit < 0 then Err(NegativeLimit)
    else
      var mine := Filter(t, OfUser(args.userID));
      var page := Window(mine, args.limit, args.offset);
      assert forall k :: 0 <= k < |page| ==> page[k] in mine;
      if exists k :: 0 <= k < |page| && scanFails(page[k]) then
        assert exists k :: 0 <= k < |page| && scanFails(Window(Filter(t, OfUser(args.userID)), args.limit, args.offset)[k]) by {
          var k :| 0 <= k < |page| && scanFails(page[k]);
          assert scanFails(Window(Filter(t, OfUser(args.userID)), args.limit, args.offset)[k]);
        }
        Err(ScanError)
      else Ok(page)
  }

  /** With rows that all scan, a first page as long as the table is every row
      of the user in storage order, and rows granted later come after: the
      list of `t + more` is the list of `t` followed by the user's rows of
      `more`. */
  lemma ListUsersByRoleAppends(t: RoleTable, more: RoleTable, userID: string, limit: nat)
    requires limit >= |t| + |more|
    ensures ListUsersByRole(t, ListUserRoleParams(userID, limit, 0), x => false) == Ok(Filter(t, OfUser(userID)))
    ensures ListUsersByRole(t + more, ListUserRoleParams(userID, limit, 0), x => false) ==
            Ok(ListUsersByRole(t, ListUserRoleParams(userID, limit, 0), x => false).value + Filter(more, OfUser(userID)))
  {
    WholeFirstPage(Filter(t, OfUser(userID)), limit);
    WholeFirstPage(Filter(t + more, OfUser(userID)), limit);
    FilterConcat(t, more, OfUser(userID));
  }
}
